=== FILE: README.md ===
# MS SQL schema manager and immutable date/interval types, in Dafny

This project models two parts of a PHP database abstraction layer:

- **The MS SQL schema manager** (`MsSqlSchemaManager`):
  - `alterTable`: the validation pass over the change kinds, the clause build loop, and the one `ALTER TABLE` statement it executes.
  - `createSequence`: the statements it hands to `exec` and what it returns or throws.
  - `listTableColumns`: how raw `sp_columns` rows are normalised into column descriptors keyed by column name.
  - `listTableViews`: which index names survive the filter against the primary-key names.
- **Three type converters**:
  - `DateIntervalType`: a `DateInterval` stored as the signed designator text `%RP%YY%MM%DDT%HH%IM%SS`.
  - `DateTimeImmutableType`: stored in the platform's datetime format, read back strictly first and then permissively.
  - `DateImmutableType`: stored in the platform's date format, read back strictly with `!`.

The model is functional. Every collaborator the PHP code calls becomes a function-typed field of a `Services` or `DateLibrary` value. This covers:

- identifier and literal quoting;
- `exec`, `fetchAssoc` and `fetchColumn`;
- the portable-declaration mapper;
- the index-name formatter;
- PHP's date formatter and parsers.

Side effects are returned as the sequence of SQL statements executed, together with the outcome. Thrown exceptions become the `Err` case of a `Result`.

Some PHP semantics the code depends on are written out:

- string truthiness: `""` and `"0"` are false;
- `strtolower` and `trim`;
- `array_change_key_case`;
- ordered arrays whose assignment replaces an existing key in place;
- integer-to-string conversion.

`DateInterval` (its `format` directives and its ISO 8601 duration constructor) is PHP's own class and not part of the repository. `Intervals` gives it a definition of its own: `Format` interprets the directives, and `Parse` reads the text in two stages, as PHP's date library does: it trims C white space (space, tab, newline, vertical tab, form feed, carriage return) from the outer ends of the whole text, then skips the scanner's own separators (space, tab, newline, `.`, `,` and NUL) next to the duration, which must have the designator form `P[nY][nM][nW][nD][T[nH][nM][nS]]`. Any other character left beside the duration makes the text invalid.

Modules, one per file:

| module | file |
|---|---|
| `Wrappers` | `wrappers.dfy` |
| `Decimal` | `decimal.dfy` |
| `Php` | `php.dfy` |
| `Connection` | `connection.dfy` |
| `MsSqlAlterTable` | `mssql_alter_table.dfy` |
| `MsSqlSequences` | `mssql_sequences.dfy` |
| `MsSqlTableColumns` | `mssql_table_columns.dfy` |
| `MsSqlTableIndexes` | `mssql_table_indexes.dfy` |
| `TypeConversion` | `type_conversion.dfy` |
| `Intervals` | `intervals.dfy` |
| `DateIntervalType` | `date_interval_type.dfy` |
| `DateTimeImmutableType` | `date_time_immutable_type.dfy` |
| `DateImmutableType` | `date_immutable_type.dfy` |

## Model

| member | source | states |
|---|---|---|
| MsSqlAlterTable.FirstUnsupported | lib/Doctrine/Schema/MsSqlSchemaManager.php:170-182 | The validation pass finds nothing exactly when every change kind is `add` or `remove`. Otherwise it names the first unsupported kind in iteration order. |
| MsSqlAlterTable.AppendAfterTruthy | lib/Doctrine/Schema/MsSqlSchemaManager.php:186-191 | Once the query is non-empty, each further clause is appended after `", "`. |
| MsSqlAlterTable.BuildIsJoin | lib/Doctrine/Schema/MsSqlSchemaManager.php:184-204 | With truthy clauses, the build loop equals joining the clauses with `", "`. The result is truthy exactly when there is at least one clause. |
| MsSqlAlterTable.ClausesAreTruthy | lib/Doctrine/Schema/MsSqlSchemaManager.php:185-202 | Every `ADD` and `DROP COLUMN` clause is a truthy string. |
| MsSqlAlterTable.Clauses | lib/Doctrine/Schema/MsSqlSchemaManager.php:185-202 | As written, one `ADD <declaration>` clause per `add` entry, in order, then one `DROP COLUMN <raw name>` clause per `remove` entry, in order, and no other clause. |
| MsSqlAlterTable.QuotedClauses | lib/Doctrine/Schema/MsSqlSchemaManager.php:194-202 | The corrected clauses: the same `ADD` clauses, then `DROP COLUMN` followed by each removed name passed through the identifier quoter. |
| MsSqlAlterTable.AppendClauses | lib/Doctrine/Schema/MsSqlSchemaManager.php:186-191 | The build loop only extends the query it starts from. With truthy clauses, the result is truthy exactly when the starting query is truthy or there is a clause. |
| MsSqlAlterTable.AlterTable | lib/Doctrine/Schema/MsSqlSchemaManager.php:168-210 | An unsupported kind throws before any statement. With no clauses the call returns false and executes nothing. Otherwise it executes exactly one statement, `ALTER TABLE <quoted name> ` followed by the joined clauses, and returns what `exec` returns. |
| MsSqlAlterTable.UnsupportedKindIsNamed | lib/Doctrine/Schema/MsSqlSchemaManager.php:170-181 | The exception message names the first unsupported change kind. |
| MsSqlAlterTable.CheckFlagIgnored | lib/Doctrine/Schema/MsSqlSchemaManager.php:168-210 | The `$check` argument changes neither the statements nor the result. |
| MsSqlAlterTable.DropIgnoresQuoting | lib/Doctrine/Schema/MsSqlSchemaManager.php:199-200 | As written, the clauses do not depend on the identifier quoter at all. |
| MsSqlAlterTable.ReservedWordDroppedBare | lib/Doctrine/Schema/MsSqlSchemaManager.php:199-200 | As written, removing the column `order` executes `ALTER TABLE [t] DROP COLUMN order`, with the reserved word unquoted. |
| MsSqlAlterTable.AlterTableQuoted | lib/Doctrine/Schema/MsSqlSchemaManager.php:194-210 | The corrected `alterTable` has the same contract, with each dropped name passed through the identifier quoter. |
| MsSqlAlterTable.ReservedWordDroppedQuoted | lib/Doctrine/Schema/MsSqlSchemaManager.php:199-200 | With quoting applied, the same removal executes `ALTER TABLE [t] DROP COLUMN [order]`. |
| MsSqlSequences.CreateSequence | lib/Doctrine/Schema/MsSqlSchemaManager.php:225-246 | The statements issued are a prefix of create, seed, drop. One is issued when the create fails or the start is 1, two when the seed succeeds, three otherwise. The call throws exactly when the create fails or the compensating drop fails, with the error of the last statement issued; otherwise it returns true. |
| MsSqlSequences.SeedFailureReportedAsSuccess | lib/Doctrine/Schema/MsSqlSchemaManager.php:238-245 | As written, a failed seed followed by a successful drop returns true, although the table is gone. |
| MsSqlSequences.CreateSequenceReported | lib/Doctrine/Schema/MsSqlSchemaManager.php:225-246 | The corrected version issues the same statements. It succeeds exactly when the create succeeds and either the start is 1 or the seed succeeds. A failed create is reported with the create's error. A failed seed is reported with the seed's error, and with the drop's error beside it exactly when the compensating drop fails too. |
| MsSqlSequences.ReportedKeepsThrownError | lib/Doctrine/Schema/MsSqlSchemaManager.php:225-246 | Every error the written version throws is still reported by the corrected one: a create failure as such, a drop failure beside the seeding error. |
| Decimal.ValueOfNatToString | lib/Doctrine/Schema/MsSqlSchemaManager.php:229-230 | The decimal numeral written for a non-negative start value reads back as that value. |
| Decimal.IntToStringInjective | lib/Doctrine/Schema/MsSqlSchemaManager.php:229-230 | Distinct start values give distinct numerals. |
| MsSqlSequences.CreateStatementInjective | lib/Doctrine/Schema/MsSqlSchemaManager.php:229-230 | For the same sequence name, distinct start values give distinct `CREATE TABLE` statements. |
| Php.LowerKeys | lib/Doctrine/Schema/MsSqlSchemaManager.php:287 | Lower-casing the keys gives an array with unique keys. |
| MsSqlTableColumns.LowerKeysField | lib/Doctrine/Schema/MsSqlSchemaManager.php:287 | After lower-casing, a field holds the value of the last raw key that lower-cases to its name. |
| MsSqlTableColumns.UpToSpace | lib/Doctrine/Schema/MsSqlSchemaManager.php:289-290 | The longest prefix without a space, which ends at the end of the text or before a space. |
| MsSqlTableColumns.SplitTypeName | lib/Doctrine/Schema/MsSqlSchemaManager.php:289-294 | Without a space, the type is the whole name and the identity marker is empty. With a space, the first two space-free words are the type and the marker. |
| MsSqlTableColumns.SplitTypeNameOfWords | lib/Doctrine/Schema/MsSqlSchemaManager.php:289-294 | Splitting `base identity ...` gives back `base` and `identity`. |
| MsSqlTableColumns.NativeType | lib/Doctrine/Schema/MsSqlSchemaManager.php:296-298 | Only `varchar` changes, and it gains its length in parentheses. |
| MsSqlTableColumns.DescribeColumn | lib/Doctrine/Schema/MsSqlSchemaManager.php:286-315 | Name and default are read from the lower-cased row. The native type comes from the split type name. `primary` holds iff the marker lower-cases to `identity`. `notnull` holds iff the trimmed nullability is `NO`. The mapper is given the lower-cased row with `type` set to the native type and `identity` to the marker. `alltypes`, `length`, `fixed` and `unsigned` are its answer, and the portable type is the first of its types. |
| Php.TrimEqualsIff | lib/Doctrine/Schema/MsSqlSchemaManager.php:312 | A trimmed string equals a word with non-blank edges exactly when the string is that word padded with blanks. |
| MsSqlTableColumns.NotNullMeansNo | lib/Doctrine/Schema/MsSqlSchemaManager.php:312 | `notnull` holds exactly when the raw nullability is `NO` padded with blanks. |
| MsSqlTableColumns.PrimaryMeansIdentityMarker | lib/Doctrine/Schema/MsSqlSchemaManager.php:289-314 | For a type name `base marker`, the column is primary iff the marker lower-cases to `identity`, and the native type is derived from `base` alone. |
| Php.AssignLastWins | lib/Doctrine/Schema/MsSqlSchemaManager.php:316 | After assigning a list of entries, each key maps to the value of its last entry. |
| Php.AssignKeysInFirstOrder | lib/Doctrine/Schema/MsSqlSchemaManager.php:316 | Assigned keys appear once each, in the order of their first assignment. |
| MsSqlTableColumns.ColumnsOf | lib/Doctrine/Schema/MsSqlSchemaManager.php:286-317 | The keyed listing has unique keys, and its keys are the rows' column names in the order they first appear. |
| MsSqlTableColumns.ColumnsLastRowWins | lib/Doctrine/Schema/MsSqlSchemaManager.php:304-316 | The listing maps each column name to the descriptor of the last row carrying that name. |
| MsSqlTableColumns.ColumnsAbsentName | lib/Doctrine/Schema/MsSqlSchemaManager.php:316 | A name no row carries is not in the listing. |
| MsSqlTableColumns.ColumnsKeys | lib/Doctrine/Schema/MsSqlSchemaManager.php:316-319 | The listing's keys are exactly the rows' column names, with at most one entry per row. |
| MsSqlTableColumns.ListTableColumns | lib/Doctrine/Schema/MsSqlSchemaManager.php:280-320 | The `sp_columns` query either propagates its driver error or yields the keyed listing of its rows. |
| MsSqlTableIndexes.KeptIndexes | lib/Doctrine/Schema/MsSqlSchemaManager.php:402-410 | An entry is kept when `KeepIndex` holds (line 405), and the filter returns at most as many names as the index query. |
| MsSqlTableIndexes.KeptIndexesMembership | lib/Doctrine/Schema/MsSqlSchemaManager.php:404-408 | A name is listed iff some index that is non-null, non-empty and not a primary key fixes up to it. |
| MsSqlTableIndexes.KeptIndexesAppend | lib/Doctrine/Schema/MsSqlSchemaManager.php:404-408 | The filter works entry by entry and keeps the query's order. |
| MsSqlTableIndexes.NoPrimaryKeySurvives | lib/Doctrine/Schema/MsSqlSchemaManager.php:405 | No primary-key name and no empty name is listed. |
| MsSqlTableIndexes.ListTableViews | lib/Doctrine/Schema/MsSqlSchemaManager.php:395-410 | The index query's error comes first, then the primary-key query's error. Otherwise the result is exactly the kept names, fixed up, in the index query's order, and no more of them than the query returned. |
| Intervals.Parse | src/Types/DateIntervalType.php:60 | C white space is trimmed from the outer ends, then the scanner's separators (space, tab, newline, `.`, `,`, NUL) are skipped next to the duration, before the duration is read. A parsed duration never has its direction flag set. |
| Intervals.StripPadded | src/Types/DateIntervalType.php:60 | Stripping one character class from both ends of a word padded with that class, whose own edges are not in it, gives back the word. |
| Intervals.TrimStage | src/Types/DateIntervalType.php:60 | Trimming white space from text laid out as white space, separators, word, separators, white space leaves the word with only separators around it. |
| Intervals.PaddingIgnored | src/Types/DateIntervalType.php:60 | White space at the outer ends and separators next to the word are ignored: the padded text parses as the word itself. |
| Intervals.InnerSpaceRejected | src/Types/DateIntervalType.php:60 | White space is trimmed only at the outer ends: a carriage return between the word and a trailing `.` is never accepted. |
| Intervals.DurationEndsInDesignator | src/Types/DateIntervalType.php:60 | Every accepted duration ends with one of the designator letters `Y`, `M`, `W`, `D`, `H`, `S`. |
| Intervals.ParseNeedsP | src/Types/DateIntervalType.php:60 | Of the designator form, the only form modelled: text whose first character is neither white space, a separator nor `P` is rejected. |
| Intervals.ParseDesignatorForm | src/Types/DateIntervalType.php:39-60 | Parsing the unsigned designator form of an interval gives back all six of its fields. |
| Intervals.WeeksAreSevenDays | src/Types/DateIntervalType.php:60 | `PnW` parses to `7n` days. |
| DateIntervalType.FormatIsSignedDesignatorForm | src/Types/DateIntervalType.php:21-40 | `FORMAT` prints the sign, then the designator form with every field padded to two digits. |
| DateIntervalType.ConvertToDatabaseValue | src/Types/DateIntervalType.php:33-44 | Succeeds exactly for null and intervals. An interval is stored as its signed designator form. Anything else gives `InvalidType` naming `null` and `DateInterval`. |
| DateIntervalType.Unsigned | src/Types/DateIntervalType.php:54-57 | Strips exactly one leading `+` or `-` and nothing else. |
| DateIntervalType.ConvertToPHPValue | src/Types/DateIntervalType.php:46-70 | Null and intervals pass through. An object without `ArrayAccess` fails reading `$value[0]`, and an array led by a sign fails in `substr`; both escape the `try`. Any other non-string value is reported as `InvalidFormat` with `FORMAT`. For text, one sign is stripped and the rest parsed. A parse failure gives `InvalidFormat` carrying the stripped text and `FORMAT`. On success the fields are the parsed ones, and the direction flag is set iff the text began with `-`. |
| DateIntervalType.RoundTrip | src/Types/DateIntervalType.php:33-70 | Every interval, in either direction, reads back unchanged from its stored text. |
| DateIntervalType.PlusPrefixIsNoPrefix | src/Types/DateIntervalType.php:52-57 | A leading `+` changes neither the result nor the error. |
| DateIntervalType.MinusPrefixInverts | src/Types/DateIntervalType.php:52-68 | A leading `-` gives the same interval with the direction flag set, or the same error. |
| DateIntervalType.TwoSignsRejected | src/Types/DateIntervalType.php:54-68 | Only one sign is stripped. A second sign is rejected, and the error carries the text after the first sign. |
| DateIntervalType.PaddedTextAccepted | src/Types/DateIntervalType.php:52-68 | The unsigned designator form of an interval, padded as the constructor allows (white space at the outer ends, separators next to the duration), reads back as the positive interval with the same fields. |
| DateIntervalType.EmptyDurationsRejected | src/Types/DateIntervalType.php:59-68 | `P`, `PT` and the empty text are rejected. |
| DateTimeImmutableType.ConvertToDatabaseValue | src/Types/DateTimeImmutableType.php:20-35 | Succeeds exactly for null and datetimes. A datetime is formatted with the platform's datetime format. Anything else gives `InvalidType` naming `null` and `DateTimeImmutable`. |
| DateTimeImmutableType.ConvertToPHPValue | src/Types/DateTimeImmutableType.php:37-58 | Null and datetimes pass through. Text is parsed strictly with the datetime format, then permissively. A failure of both gives `InvalidFormat` naming that format. |
| DateTimeImmutableType.InvalidFormatIffBothParsesFail | src/Types/DateTimeImmutableType.php:43-55 | Text is rejected exactly when both the strict and the permissive parse fail. |
| DateTimeImmutableType.StrictParseWins | src/Types/DateTimeImmutableType.php:43-47 | When the strict parse succeeds, the permissive parser plays no part. |
| DateTimeImmutableType.RoundTrip | src/Types/DateTimeImmutableType.php:20-58 | A stored datetime reads back as itself whenever the strict parse inverts the formatter. |
| DateImmutableType.ConvertToDatabaseValue | src/Types/DateImmutableType.php:18-33 | Succeeds exactly for null and dates. A date is formatted with the platform's date format. Anything else gives `InvalidType` naming `null` and `DateTimeImmutable`. |
| DateImmutableType.ConvertToPHPValue | src/Types/DateImmutableType.php:35-52 | Null and dates pass through. Text is parsed only with `!` followed by the date format. A failure gives `InvalidFormat` naming the date format without the `!`. |
| DateImmutableType.NoFallbackParse | src/Types/DateImmutableType.php:41-49 | The permissive parser never affects the result. |
| DateImmutableType.InvalidFormatNamesDateFormat | src/Types/DateImmutableType.php:43-48 | The error names the platform's date format, not the `!`-prefixed format the parse used. |
| DateImmutableType.RoundTrip | src/Types/DateImmutableType.php:18-52 | A stored date reads back as itself whenever the `!`-prefixed strict parse inverts the formatter. |

## Left out

- `listTableIndexes` (lines 328-331) is an empty stub.
- `listTables`, `listTriggers` and `listViews` (lines 339-357, 419-423) return the column of one fixed query unchanged. `listTableTriggers` (lines 366-373) does the same after quoting the table name as a literal into the query. `listSequences` (lines 266-271) maps each name through the formatter's `fixSequenceName`. None of them makes a decision.
- `createDatabase` (lines 46-56) sends `CREATE DATABASE <quoted name>` as a standalone query. When the `database_device` option is truthy it appends ` ON <device>`, and `=<size>` when `database_size` is truthy too. `dropDatabase` (lines 64-68) sends `DROP DATABASE <quoted name>` the same way. These are connection-level I/O with no logic beyond the concatenation.
- `dropSequenceSql` (lines 254-258) returns `DROP TABLE` followed by the quoted sequence name, the statement `createSequence` issues as its compensating drop. `getTemporaryTableQuery` (lines 76-79) returns the empty string.
- `listTableViews` key-name case (lines 384-394): the portability attributes that choose `INDEX_NAME` or `index_name` become the `keyName` and `pkName` parameters.
- `MsSqlTableIndexes.KeepIndex` compares index names with exact equality. PHP's loose `in_array` would also match numeric strings such as `"1"` and `"01"`.
- `MsSqlSequences.CreateSequence` takes an integer start. A string start, and PHP's loose `$start == 1` on such strings, are not modelled.
- PHP arrays are modelled with string keys only. Integer keys and PHP's conversion of numeric-string keys to integers are left out.
- The portable-declaration mapper is a parameter. The model states which row it is given and that `alltypes`, `length`, `fixed`, `unsigned` and the portable type come from its answer. How it maps native types to portable types is not part of this model.
- `DateIntervalType.getSQLDeclaration` sets the column length to 255 and asks the platform for its string type declaration, which is platform code outside the model. `DateIntervalType.requiresSQLCommentHint` returns `true`; the deprecation notice it triggers is a side effect.
- `static::class` is modelled as the class's own name. Subclasses, and the previous exception chained into `InvalidFormat`, are left out.
- Intervals.Format models the directives `%R %r %Y %y %M %m %D %d %H %h %I %i %S %s %%`. Microseconds (`%F`, `%f`) and the total-days directive `%a` are left out because the interval datatype has no such fields.
- Intervals.Parse accepts only the designator form, after the two stages described above. Both character sets follow PHP's date library, which is not part of the repository: the constructor trims C white space from the outer ends, and its scanner then skips space, tab, newline, `.`, `,` and NUL between tokens; in the designator form the only token is the duration, so the scanner's skipping happens just before and after it. The constructor's other forms are left out: the combined form `P0001-02-03T04:05:06`, and the forms with a start or end date and a recurrence count. So is PHP's cap on the number of digits per element. Amounts are unbounded natural numbers rather than PHP integers.
- DateTimeImmutableType.ConvertToPHPValue and DateImmutableType.ConvertToPHPValue: every non-string value other than null and the converter's own class is one `Other` case. It gives `TypeError`, because the strict parse takes a string under strict types; its `Shape` plays no part.
- DateIntervalType.ConvertToPHPValue: an `ArrayAccess` object's own `offsetExists` and `offsetGet` are reduced to the `signLed` flag of its `Shape`, and PHP's `Error` for an object without `ArrayAccess` is the `NotAnArray` error.
- The date library (format, strict parse, permissive parse) is a parameter. Its calendar rules, time zones and clock are not modelled; the round trips assume that its strict parse inverts its formatter.

## Findings

| source | as written | input that shows it | evidently intended | confidence | as-written member | corrected member |
|---|---|---|---|---|---|---|
| lib/Doctrine/Schema/MsSqlSchemaManager.php:242-245 | A failed seed insert is caught, the table dropped, and `true` returned. | `start = 5`, the create succeeds, the seed insert fails, the drop succeeds: the result is `true`, but no sequence exists. | The seed failure is reported to the caller after the compensating drop. | medium, not executed | MsSqlSequences.SeedFailureReportedAsSuccess | MsSqlSequences.CreateSequenceReported |
| lib/Doctrine/Schema/MsSqlSchemaManager.php:199-200 | The quoted name is computed into `$field_name`, but the clause uses the raw `$fieldName`. | Removing the column `order` from `t` executes `ALTER TABLE [t] DROP COLUMN order`, which fails on the reserved word. | `DROP COLUMN` followed by the quoted name. | high, not executed | MsSqlAlterTable.ReservedWordDroppedBare | MsSqlAlterTable.AlterTableQuoted |

Notable behaviours of the code, which the model follows:

- **createSequence**:
  - The identity starts at the start value, not at 1.
  - A failed seed is swallowed.
- **DateIntervalType**: `InvalidFormat` carries the text with its sign stripped, not the original input.
- **alterTable**: `$check` is ignored; it does not short-circuit after validation.
- **listTableColumns**: a `varchar` without a length becomes `varchar()`.

=== FILE: connection.dfy ===
/** What the schema manager sees of its database connection: statement execution and its
    failures. Every other connection service is passed to the operations as a function. */
module Connection {

  /** An error raised by the database driver, propagated to the caller unchanged. */
  datatype DbError = DbError(message: string)

  /** The result of `exec`: the number of affected rows, or a thrown driver error. */
  datatype ExecResult = Affected(rows: int) | Failed(error: DbError)
}

=== FILE: date_immutable_type.dfy ===
/** `DateImmutableType`: a `DateTimeImmutable` stored as text in the platform's date format,
    read back with the strict format only, its fields reset by the `!` prefix. */
module DateImmutableType {
  import opened Wrappers
  import opened TypeConversion

  const CLASS := "Doctrine\\DBAL\\Types\\DateImmutableType"

  /** `convertToDatabaseValue`. */
  function ConvertToDatabaseValue<D>(value: Value<D>, platform: Platform, lib: DateLibrary<D>): (r: Result<Option<string>, ConversionError<D>>)
    ensures r.Ok? <==> value.Null? || value.Native?
    ensures value.Null? ==> r == Ok(None)
    ensures value.Native? ==> r == Ok(Some(lib.format(value.native, platform.dateFormat)))
    ensures r.Err? ==> r.error == InvalidType(value, CLASS, ["null", DATE_TIME_IMMUTABLE])
  {
    match value
    case Null => Ok(None)
    case Native(d) => Ok(Some(lib.format(d, platform.dateFormat)))
    case _ => Err(InvalidType(value, CLASS, ["null", DATE_TIME_IMMUTABLE]))
  }

  /** The format the strict parse uses: the platform's date format after `!`. */
  function StrictFormat(platform: Platform): string {
    "!" + platform.dateFormat
  }

  /** `convertToPHPValue`. */
  function ConvertToPHPValue<D>(value: Value<D>, platform: Platform, lib: DateLibrary<D>): (r: Result<Option<D>, ConversionError<D>>)
    ensures value.Null? ==> r == Ok(None)
    ensures value.Native? ==> r == Ok(Some(value.native))
    ensures value.Other? ==> r == Err(TypeError(value))
    ensures value.Text? ==>
      r == (match lib.createFromFormat(StrictFormat(platform), value.text)
            case Some(d) => Ok(Some(d))
            case None => Err(InvalidFormat(value, CLASS, platform.dateFormat)))
  {
    match value
    case Null => Ok(None)
    case Native(d) => Ok(Some(d))
    case Other(_, _) => Err(TypeError(value))
    case Text(s) =>
      var parsed := lib.createFromFormat("!" + platform.dateFormat, s);
      if parsed.None? then Err(InvalidFormat(value, CLASS, platform.dateFormat))
      else Ok(Some(parsed.value))
  }

  /** There is no fallback: the permissive parser never affects the result. */
  lemma NoFallbackParse<D>(value: Value<D>, platform: Platform, lib: DateLibrary<D>, fallback: string -> Option<D>)
    ensures ConvertToPHPValue(value, platform, lib) == ConvertToPHPValue(value, platform, lib.(dateCreate := fallback))
  {
  }

  /** The error names the platform's date format, without the `!` the parse used. */
  lemma InvalidFormatNamesDateFormat<D>(s: string, platform: Platform, lib: DateLibrary<D>)
    requires lib.createFromFormat(StrictFormat(platform), s).None?
    ensures ConvertToPHPValue(Text(s), platform, lib) == Err(InvalidFormat(Text(s), CLASS, platform.dateFormat))
  {
  }

  /** Round trip: a date read back from its stored text is the same value, when the library's
      `!`-prefixed strict parse inverts its formatter. */
  lemma RoundTrip<D>(d: D, platform: Platform, lib: DateLibrary<D>)
    requires lib.createFromFormat(StrictFormat(platform), lib.format(d, platform.dateFormat)) == Some(d)
    ensures var stored := ConvertToDatabaseValue(Native(d), platform, lib);
      stored.Ok? && stored.value.Some?
      && ConvertToPHPValue(Text(stored.value.value), platform, lib) == Ok(Some(d))
  {
  }
}

=== FILE: date_interval_type.dfy ===
/** `DateIntervalType`: a `DateInterval` stored as the signed designator text `FORMAT` prints,
    read back through the `DateInterval` constructor after one optional sign is stripped. */
module DateIntervalType {
  import opened Wrappers
  import opened Decimal
  import opened TypeConversion
  import opened Intervals

  const FORMAT := "%RP%YY%MM%DDT%HH%IM%SS"
  const CLASS := "Doctrine\\DBAL\\Types\\DateIntervalType"
  const DATE_INTERVAL := "DateInterval"

  /** The sign `%R` prints. */
  function Sign(iv: Interval): string {
    if iv.invert then "-" else "+"
  }

  /** `FORMAT` prints the sign, then every field in the designator form, padded to two digits. */
  lemma FormatIsSignedDesignatorForm(iv: Interval)
    ensures Format(iv, FORMAT) == Sign(iv) + DesignatorForm(iv)
  {
    FormatSign(iv);
    FormatFields(iv);
    DesignatorShape(Sign(iv), DatePart(iv), TimePart(iv));
  }

  lemma FormatSign(iv: Interval)
    ensures Format(iv, FORMAT) == Sign(iv) + ['P'] + Format(iv, "%YY%MM%DD" + (['T'] + ("%HH%IM%SS" + [])))
  {
    assert FORMAT == ['%', 'R', 'P'] + ("%YY%MM%DD" + (['T'] + ("%HH%IM%SS" + [])));
    FormatDirective(iv, 'R', 'P', "%YY%MM%DD" + (['T'] + ("%HH%IM%SS" + [])));
  }

  lemma FormatFields(iv: Interval)
    ensures Format(iv, "%YY%MM%DD" + (['T'] + ("%HH%IM%SS" + []))) == DatePart(iv) + (['T'] + TimePart(iv))
  {
    FormatDateFields(iv, ['T'] + ("%HH%IM%SS" + []));
    FormatLiteral(iv, 'T', "%HH%IM%SS" + []);
    FormatTimeFields(iv, []);
    assert TimePart(iv) + Format(iv, []) == TimePart(iv);
  }

  /** The formatted text regrouped as sign, then designator form, stated on abstract strings so
      that the format proofs need not regroup long concatenations. */
  lemma DesignatorShape(sign: string, date: string, time: string)
    ensures sign + ['P'] + (date + (['T'] + time)) == sign + ("P" + date + "T" + time)
  {
  }

  lemma FormatDateFields(iv: Interval, rest: string)
    ensures Format(iv, "%YY%MM%DD" + rest) == DatePart(iv) + Format(iv, rest)
  {
    assert "%YY%MM%DD" + rest == ['%', 'Y', 'Y'] + (['%', 'M', 'M'] + (['%', 'D', 'D'] + rest));
    FormatThreeFields(iv, 'Y', 'Y', 'M', 'M', 'D', 'D', rest);
    ElementsShape(Pad2(iv.years), 'Y', Pad2(iv.months), 'M', Pad2(iv.days), 'D', Format(iv, rest));
  }

  lemma FormatTimeFields(iv: Interval, rest: string)
    ensures Format(iv, "%HH%IM%SS" + rest) == TimePart(iv) + Format(iv, rest)
  {
    assert "%HH%IM%SS" + rest == ['%', 'H', 'H'] + (['%', 'I', 'M'] + (['%', 'S', 'S'] + rest));
    FormatThreeFields(iv, 'H', 'H', 'I', 'M', 'S', 'S', rest);
    ElementsShape(Pad2(iv.hours), 'H', Pad2(iv.minutes), 'M', Pad2(iv.seconds), 'S', Format(iv, rest));
  }

  /** Three formatted elements and the rest, regrouped element by element, stated on abstract
      strings so that the format proofs need not regroup long concatenations. */
  lemma ElementsShape(a: string, x: char, b: string, y: char, c: string, z: char, rest: string)
    ensures a + [x] + (b + [y] + (c + [z] + rest)) == (a + [x]) + (b + [y]) + (c + [z]) + rest
  {
  }

  /** `convertToDatabaseValue`. */
  function ConvertToDatabaseValue(value: Value<Interval>): (r: Result<Option<string>, ConversionError<Interval>>)
    ensures r.Ok? <==> value.Null? || value.Native?
    ensures value.Null? ==> r == Ok(None)
    ensures value.Native? ==> r == Ok(Some(Sign(value.native) + DesignatorForm(value.native)))
    ensures r.Err? ==> r.error == InvalidType(value, CLASS, ["null", DATE_INTERVAL])
  {
    match value
    case Null => Ok(None)
    case Native(iv) =>
      FormatIsSignedDesignatorForm(iv);
      Ok(Some(Format(iv, FORMAT)))
    case _ => Err(InvalidType(value, CLASS, ["null", DATE_INTERVAL]))
  }

  predicate IsSign(c: char) {
    c == '+' || c == '-'
  }

  /** The text with one leading sign removed. */
  function Unsigned(s: string): (u: string)
    ensures s != [] && IsSign(s[0]) ==> s == [s[0]] + u
    ensures !(s != [] && IsSign(s[0])) ==> u == s
  {
    if s != [] && IsSign(s[0]) then s[1..] else s
  }

  /** `convertToPHPValue`: null and intervals pass through; text loses one leading sign, is
      parsed, and a `-` sets the direction flag; a parse failure reports the unsigned text.
      Any other value escapes the `try` when reading `$value[0]` fails (an object without
      `ArrayAccess`) or when a leading sign hands it to `substr`; otherwise it fails the
      constructor's string parameter inside the `try`, and is reported as a bad format. */
  function ConvertToPHPValue(value: Value<Interval>): (r: Result<Option<Interval>, ConversionError<Interval>>)
    ensures value.Null? ==> r == Ok(None)
    ensures value.Native? ==> r == Ok(Some(value.native))
    ensures value.Other? ==> r.Err?
    ensures value.Other? && value.shape.PlainObject? ==> r.error == NotAnArray(value)
    ensures value.Other? && value.shape == Indexable(true) ==> r.error == TypeError(value)
    ensures value.Other? && (value.shape.Scalar? || value.shape == Indexable(false)) ==>
      r.error == InvalidFormat(value, CLASS, FORMAT)
    ensures value.Text? && r.Ok? ==>
      r.value.Some? && (r.value.value.invert <==> value.text != [] && value.text[0] == '-')
    ensures value.Text? ==> (r.Err? <==> Parse(Unsigned(value.text)).None?)
    ensures value.Text? && r.Err? ==> r.error == InvalidFormat(Text(Unsigned(value.text)), CLASS, FORMAT)
    ensures value.Text? && r.Ok? ==> r.value.value.(invert := false) == Parse(Unsigned(value.text)).value
  {
    match value
    case Null => Ok(None)
    case Native(iv) => Ok(Some(iv))
    case Other(_, shape) =>
      (match shape
       case PlainObject => Err(NotAnArray(value))
       case Indexable(true) => Err(TypeError(value))
       case _ => Err(InvalidFormat(value, CLASS, FORMAT)))
    case Text(s) =>
      var negative := s != [] && s[0] == '-';
      var u := Unsigned(s);
      match Parse(u)
      case None => Err(InvalidFormat(Text(u), CLASS, FORMAT))
      case Some(iv) => Ok(Some(if negative then iv.(invert := true) else iv))
  }

  /** A successful parse of the unsigned text is the result, inverted after a `-`. */
  lemma ConvertParsed(s: string, iv: Interval)
    requires Parse(Unsigned(s)) == Some(iv)
    ensures ConvertToPHPValue(Text(s)) == Ok(Some(if s != [] && s[0] == '-' then iv.(invert := true) else iv))
  {
  }

  /** Round trip: every interval, either direction, reads back from its stored text. */
  lemma RoundTrip(iv: Interval)
    ensures var stored := ConvertToDatabaseValue(Native(iv));
      stored.Ok? && stored.value.Some? && ConvertToPHPValue(Text(stored.value.value)) == Ok(Some(iv))
  {
    var text := Sign(iv) + DesignatorForm(iv);
    assert Unsigned(text) == DesignatorForm(iv);
    ParseDesignatorForm(iv);
    ConvertParsed(text, iv.(invert := false));
  }

  /** A leading `+` changes nothing. */
  lemma PlusPrefixIsNoPrefix(s: string)
    requires s == [] || !IsSign(s[0])
    ensures ConvertToPHPValue(Text("+" + s)) == ConvertToPHPValue(Text(s))
  {
    assert Unsigned("+" + s) == s;
  }

  /** A leading `-` gives the same interval with the direction flag set, or the same error. */
  lemma MinusPrefixInverts(s: string)
    requires s == [] || !IsSign(s[0])
    ensures ConvertToPHPValue(Text("-" + s)) ==
      match ConvertToPHPValue(Text(s))
      case Ok(Some(iv)) => Ok(Some(iv.(invert := true)))
      case other => other
  {
    assert Unsigned("-" + s) == s;
  }

  /** Only one sign is stripped: a second one is left for the constructor, which rejects it. */
  lemma TwoSignsRejected(s: string)
    requires |s| >= 2 && IsSign(s[0]) && IsSign(s[1])
    ensures ConvertToPHPValue(Text(s)) == Err(InvalidFormat(Text(s[1..]), CLASS, FORMAT))
  {
    var u := s[1..];
    assert Unsigned(s) == u;
    assert Parse(u) == None by {
      ParseNeedsP(u);
    }
    UnparsedReported(s);
  }

  /** A failed parse of the unsigned text is reported with that text. */
  lemma UnparsedReported(s: string)
    requires Parse(Unsigned(s)) == None
    ensures ConvertToPHPValue(Text(s)) == Err(InvalidFormat(Text(Unsigned(s)), CLASS, FORMAT))
  {
  }

  /** The unsigned designator form, padded as the constructor allows (white space at the outer
      ends, the scanner's skipped characters next to the duration), reads back as the positive
      interval. */
  lemma PaddedTextAccepted(iv: Interval, a: string, b: string, c: string, d: string)
    requires All(a, Space) && All(b, Skipped) && All(c, Skipped) && All(d, Space)
    ensures ConvertToPHPValue(Text(a + b + DesignatorForm(iv) + c + d)) == Ok(Some(iv.(invert := false)))
  {
    var w := DesignatorForm(iv);
    var text := a + b + w + c + d;
    DesignatorFormEdges(iv);
    assert text[0] == if a != [] then a[0] else if b != [] then b[0] else 'P';
    assert Unsigned(text) == text;
    PaddingIgnored(a, b, w, c, d);
    ParseDesignatorForm(iv);
    ConvertParsed(text, iv.(invert := false));
  }

  /** The designator form needs at least one element, and at least one after a `T`. */
  lemma EmptyDurationsRejected()
    ensures ConvertToPHPValue(Text("P")).Err?
    ensures ConvertToPHPValue(Text("PT")).Err?
    ensures ConvertToPHPValue(Text("")).Err?
  {
    BareTextRejected();
    EmptyTimeTextRejected();
    Intervals.EmptyDurationsRejected();
    UnparsedRejected("");
  }

  lemma BareTextRejected()
    ensures ConvertToPHPValue(Text("P")).Err?
  {
    BareDesignatorRejected();
    UnparsedRejected("P");
  }

  lemma EmptyTimeTextRejected()
    ensures ConvertToPHPValue(Text("PT")).Err?
  {
    EmptyTimePartRejected();
    UnparsedRejected("PT");
  }

  lemma UnparsedRejected(s: string)
    requires s == [] || !IsSign(s[0])
    requires Parse(s) == None
    ensures ConvertToPHPValue(Text(s)).Err?
  {
  }
}

=== FILE: date_time_immutable_type.dfy ===
/** `DateTimeImmutableType`: a `DateTimeImmutable` stored as text in the platform's datetime
    format, read back with the strict format first and the permissive parser second. */
module DateTimeImmutableType {
  import opened Wrappers
  import opened TypeConversion

  const CLASS := "Doctrine\\DBAL\\Types\\DateTimeImmutableType"

  /** `convertToDatabaseValue`. */
  function ConvertToDatabaseValue<D>(value: Value<D>, platform: Platform, lib: DateLibrary<D>): (r: Result<Option<string>, ConversionError<D>>)
    ensures r.Ok? <==> value.Null? || value.Native?
    ensures value.Null? ==> r == Ok(None)
    ensures value.Native? ==> r == Ok(Some(lib.format(value.native, platform.dateTimeFormat)))
    ensures r.Err? ==> r.error == InvalidType(value, CLASS, ["null", DATE_TIME_IMMUTABLE])
  {
    match value
    case Null => Ok(None)
    case Native(d) => Ok(Some(lib.format(d, platform.dateTimeFormat)))
    case _ => Err(InvalidType(value, CLASS, ["null", DATE_TIME_IMMUTABLE]))
  }

  /** `convertToPHPValue`. */
  function ConvertToPHPValue<D>(value: Value<D>, platform: Platform, lib: DateLibrary<D>): (r: Result<Option<D>, ConversionError<D>>)
    ensures value.Null? ==> r == Ok(None)
    ensures value.Native? ==> r == Ok(Some(value.native))
    ensures value.Other? ==> r == Err(TypeError(value))
    ensures value.Text? && lib.createFromFormat(platform.dateTimeFormat, value.text).Some? ==>
      r == Ok(lib.createFromFormat(platform.dateTimeFormat, value.text))
    ensures value.Text? && lib.createFromFormat(platform.dateTimeFormat, value.text).None? ==>
      r == (match lib.dateCreate(value.text)
            case Some(d) => Ok(Some(d))
            case None => Err(InvalidFormat(value, CLASS, platform.dateTimeFormat)))
  {
    match value
    case Null => Ok(None)
    case Native(d) => Ok(Some(d))
    case Other(_, _) => Err(TypeError(value))
    case Text(s) =>
      var strict := lib.createFromFormat(platform.dateTimeFormat, s);
      var parsed := if strict.None? then lib.dateCreate(s) else strict;
      if parsed.None? then Err(InvalidFormat(value, CLASS, platform.dateTimeFormat))
      else Ok(Some(parsed.value))
  }

  /** `InvalidFormat` is thrown exactly when both the strict and the permissive parse fail. */
  lemma InvalidFormatIffBothParsesFail<D>(s: string, platform: Platform, lib: DateLibrary<D>)
    ensures ConvertToPHPValue(Text(s), platform, lib).Err? <==>
      lib.createFromFormat(platform.dateTimeFormat, s).None? && lib.dateCreate(s).None?
  {
  }

  /** When the strict parse succeeds the permissive parser plays no part: any other permissive
      parser gives the same result. */
  lemma StrictParseWins<D>(s: string, platform: Platform, lib: DateLibrary<D>, fallback: string -> Option<D>)
    requires lib.createFromFormat(platform.dateTimeFormat, s).Some?
    ensures ConvertToPHPValue(Text(s), platform, lib) == ConvertToPHPValue(Text(s), platform, lib.(dateCreate := fallback))
  {
  }

  /** Round trip: a datetime read back from its stored text is the same datetime, when the
      library's strict parse inverts its formatter. */
  lemma RoundTrip<D>(d: D, platform: Platform, lib: DateLibrary<D>)
    requires lib.createFromFormat(platform.dateTimeFormat, lib.format(d, platform.dateTimeFormat)) == Some(d)
    ensures var stored := ConvertToDatabaseValue(Native(d), platform, lib);
      stored.Ok? && stored.value.Some?
      && ConvertToPHPValue(Text(stored.value.value), platform, lib) == Ok(Some(d))
  {
  }
}

=== FILE: decimal.dfy ===
/** Decimal numerals: how PHP writes an integer when it turns it into a string. */
module Decimal {

  predicate IsDigit(c: char) {
    '0' <= c <= '9'
  }

  predicate AllDigits(s: string) {
    forall i :: 0 <= i < |s| ==> IsDigit(s[i])
  }

  function DigitChar(d: nat): (c: char)
    requires d < 10
    ensures IsDigit(c)
  {
    ('0' as int + d) as char
  }

  function DigitValue(c: char): nat
    requires IsDigit(c)
  {
    c as int - '0' as int
  }

  /** The decimal numeral of `n`, without leading zeros. */
  function NatToString(n: nat): (s: string)
    ensures 1 <= |s| && AllDigits(s)
    ensures |s| == 1 <==> n < 10
    ensures s[0] == '0' ==> n == 0
    decreases n
  {
    if n < 10 then [DigitChar(n)] else NatToString(n / 10) + [DigitChar(n % 10)]
  }

  /** The number a string of decimal digits denotes; leading zeros are allowed. */
  function Value(s: string): nat
    requires AllDigits(s)
    decreases |s|
  {
    if s == [] then 0 else Value(s[..|s| - 1]) * 10 + DigitValue(s[|s| - 1])
  }

  lemma {:induction false} ValueOfNatToString(n: nat)
    ensures Value(NatToString(n)) == n
    decreases n
  {
    var s := NatToString(n);
    if n < 10 {
      assert s[..0] == [];
    } else {
      ValueOfNatToString(n / 10);
      assert s[..|s| - 1] == NatToString(n / 10);
    }
  }

  lemma {:induction false} ValueIgnoresLeadingZero(s: string)
    requires AllDigits(s)
    ensures Value("0" + s) == Value(s)
    decreases |s|
  {
    var z := "0" + s;
    if s == [] {
      assert z[..0] == [];
    } else {
      var p := s[..|s| - 1];
      ValueIgnoresLeadingZero(p);
      assert z[..|z| - 1] == "0" + p;
    }
  }

  /** A natural with at least two digits, zero-padded: printf's `%02d`. */
  function Pad2(n: nat): (s: string)
    ensures 2 <= |s| && AllDigits(s)
  {
    if n < 10 then "0" + NatToString(n) else NatToString(n)
  }

  lemma ValueOfPad2(n: nat)
    ensures Value(Pad2(n)) == n
  {
    ValueOfNatToString(n);
    if n < 10 {
      ValueIgnoresLeadingZero(NatToString(n));
    }
  }

  /** The decimal numeral of an integer, with a leading '-' when it is negative. */
  function IntToString(i: int): (s: string)
    ensures 1 <= |s|
    ensures s[0] == '-' <==> i < 0
  {
    if i < 0 then "-" + NatToString(-i) else NatToString(i)
  }

  lemma NatToStringInjective(a: nat, b: nat)
    requires NatToString(a) == NatToString(b)
    ensures a == b
  {
    ValueOfNatToString(a);
    ValueOfNatToString(b);
  }

  /** Distinct integers have distinct numerals. */
  lemma IntToStringInjective(a: int, b: int)
    requires IntToString(a) == IntToString(b)
    ensures a == b
  {
    assert (a < 0) == (b < 0);
    if a < 0 {
      assert IntToString(a)[1..] == NatToString(-a);
      assert IntToString(b)[1..] == NatToString(-b);
      NatToStringInjective(-a, -b);
    } else {
      NatToStringInjective(a, b);
    }
  }
}

=== FILE: intervals.dfy ===
/** PHP's `DateInterval` as the interval converter uses it: the `format` method's directives,
    and the constructor's parse of an ISO 8601 duration in the designator form
    `PnYnMnWnDTnHnMnS` (section 4.4.3.2 of ISO 8601:2004). */
module Intervals {
  import opened Wrappers
  import opened Decimal

  /** A `DateInterval`: the direction flag `invert` and six magnitudes. */
  datatype Interval = Interval(invert: bool, years: nat, months: nat, days: nat, hours: nat, minutes: nat, seconds: nat)

  /** What one `%<c>` directive of `DateInterval::format` prints: upper-case field letters pad
      to two digits, lower-case ones do not; `%R` is the sign, `%r` the sign only when negative;
      an unknown directive prints as written. */
  function Directive(iv: Interval, c: char): string {
    match c
    case 'R' => if iv.invert then "-" else "+"
    case 'r' => if iv.invert then "-" else ""
    case 'Y' => Pad2(iv.years)
    case 'y' => NatToString(iv.years)
    case 'M' => Pad2(iv.months)
    case 'm' => NatToString(iv.months)
    case 'D' => Pad2(iv.days)
    case 'd' => NatToString(iv.days)
    case 'H' => Pad2(iv.hours)
    case 'h' => NatToString(iv.hours)
    case 'I' => Pad2(iv.minutes)
    case 'i' => NatToString(iv.minutes)
    case 'S' => Pad2(iv.seconds)
    case 's' => NatToString(iv.seconds)
    case '%' => "%"
    case _ => ['%', c]
  }

  /** `DateInterval::format($fmt)`: characters copied, directives expanded, a trailing lone
      `%` dropped. */
  function Format(iv: Interval, fmt: string): string
    decreases |fmt|
  {
    if fmt == [] then ""
    else if fmt[0] != '%' then [fmt[0]] + Format(iv, fmt[1..])
    else if |fmt| == 1 then ""
    else Directive(iv, fmt[1]) + Format(iv, fmt[2..])
  }

  lemma FormatLiteral(iv: Interval, c: char, rest: string)
    requires c != '%'
    ensures Format(iv, [c] + rest) == [c] + Format(iv, rest)
  {
    assert ([c] + rest)[1..] == rest;
  }

  lemma FormatDirective(iv: Interval, d: char, c: char, rest: string)
    requires c != '%'
    ensures Format(iv, ['%', d, c] + rest) == Directive(iv, d) + [c] + Format(iv, rest)
  {
    var f := ['%', d, c] + rest;
    assert f[2..] == [c] + rest;
    FormatLiteral(iv, c, rest);
  }

  /** Three directives, each followed by a literal character. */
  lemma FormatThreeFields(iv: Interval, d1: char, c1: char, d2: char, c2: char, d3: char, c3: char, rest: string)
    requires c1 != '%' && c2 != '%' && c3 != '%'
    ensures Format(iv, ['%', d1, c1] + (['%', d2, c2] + (['%', d3, c3] + rest))) ==
      Directive(iv, d1) + [c1] + (Directive(iv, d2) + [c2] + (Directive(iv, d3) + [c3] + Format(iv, rest)))
  {
    var f3 := ['%', d3, c3] + rest;
    var f2 := ['%', d2, c2] + f3;
    FormatDirective(iv, d3, c3, rest);
    FormatDirective(iv, d2, c2, f3);
    FormatDirective(iv, d1, c1, f2);
  }

  /** The designator form with every field written, two digits at least:
      `PyyYmmMddDThhHmmMssS`. */
  function DesignatorForm(iv: Interval): string {
    "P" + DatePart(iv) + "T" + TimePart(iv)
  }

  function DatePart(iv: Interval): string {
    Element(iv.years, 'Y') + Element(iv.months, 'M') + Element(iv.days, 'D')
  }

  function TimePart(iv: Interval): string {
    Element(iv.hours, 'H') + Element(iv.minutes, 'M') + Element(iv.seconds, 'S')
  }

  /** A number of at least two digits followed by its designator. */
  function Element(n: nat, u: char): string {
    Pad2(n) + [u]
  }

  /** One `<number><designator>` element of a duration. */
  datatype Component = Component(amount: nat, designator: char)

  /** The number of leading digits. */
  function DigitRun(s: string): (k: nat)
    ensures k <= |s| && AllDigits(s[..k])
    ensures k == |s| || !IsDigit(s[k])
    decreases |s|
  {
    if s != [] && IsDigit(s[0]) then
      var n := DigitRun(s[1..]) + 1;
      assert s[..n] == [s[0]] + s[1..][..n - 1];
      n
    else 0
  }

  /** Splits `s` into `<digits><designator>` elements; None when it is not such a list. */
  function Components(s: string): Option<seq<Component>>
    decreases |s|
  {
    if s == [] then Some([])
    else
      var k := DigitRun(s);
      if k == 0 || k == |s| then None
      else
        var rest := Components(s[k + 1..]);
        if rest.None? then None else Some([Component(Value(s[..k]), s[k])] + rest.value)
  }

  /** The position of the first `c` in `s`. */
  function IndexOf(s: string, c: char): (i: nat)
    requires c in s
    ensures i < |s| && s[i] == c && c !in s[..i]
    decreases |s|
  {
    if s[0] == c then 0
    else
      var j := IndexOf(s[1..], c) + 1;
      assert s[..j] == [s[0]] + s[1..][..j - 1];
      j
  }

  /** The designators appear in `order`, each after the previous one. */
  predicate InOrder(cs: seq<Component>, order: string)
    decreases |cs| + |order|
  {
    cs == [] || (order != [] &&
      if cs[0].designator == order[0] then InOrder(cs[1..], order[1..]) else InOrder(cs, order[1..]))
  }

  /** The number given for designator `d`, 0 when there is none. */
  function Amount(cs: seq<Component>, d: char): nat
    decreases |cs|
  {
    if cs == [] then 0 else if cs[0].designator == d then cs[0].amount else Amount(cs[1..], d)
  }

  /** C's `isspace`: space, tab, newline, vertical tab, form feed and carriage return. */
  predicate IsSpace(c: char) {
    c == ' ' || c == '\t' || c == '\n' || c == '\U{B}' || c == '\U{C}' || c == '\r'
  }

  /** What the interval scanner skips between tokens: space, tab, newline, `.`, `,` and NUL.
      Any other character outside a token is an error. */
  predicate IsSkipped(c: char) {
    c == ' ' || c == '\t' || c == '\n' || c == '.' || c == ',' || c == '\0'
  }

  /** The two character sets the constructor passes over. */
  datatype CharClass = Space | Skipped

  predicate InClass(c: char, cls: CharClass) {
    match cls
    case Space => IsSpace(c)
    case Skipped => IsSkipped(c)
  }

  predicate All(s: string, cls: CharClass) {
    forall i :: 0 <= i < |s| ==> InClass(s[i], cls)
  }

  /** The suffix left once the leading characters in `cls` are gone. */
  function StripLeading(s: string, cls: CharClass): (r: string)
    ensures |r| <= |s| && r == s[|s| - |r|..]
    ensures r == [] || !InClass(r[0], cls)
    decreases |s|
  {
    if s != [] && InClass(s[0], cls) then StripLeading(s[1..], cls) else s
  }

  /** The prefix left once the trailing characters in `cls` are gone. */
  function StripTrailing(s: string, cls: CharClass): (r: string)
    ensures |r| <= |s| && r == s[..|r|]
    ensures r == [] || !InClass(r[|r| - 1], cls)
    decreases |s|
  {
    if s != [] && InClass(s[|s| - 1], cls) then StripTrailing(s[..|s| - 1], cls) else s
  }

  /** `s` without the characters in `cls` at either end. */
  function StripEnds(s: string, cls: CharClass): (r: string)
    ensures |r| <= |s|
    ensures r == [] || (!InClass(r[0], cls) && !InClass(r[|r| - 1], cls))
  {
    StripTrailing(StripLeading(s, cls), cls)
  }

  /** The duration token the constructor reads: white space is trimmed from both ends of the
      whole text first, and the scanner then skips its own characters before and after the
      token. */
  function Scanned(s: string): (r: string)
    ensures |r| <= |s|
  {
    StripEnds(StripEnds(s, Space), Skipped)
  }

  /** `new DateInterval($s)`: white space around the text is trimmed, the scanner skips its
      separators around the token, and the token must be a duration. None stands for the
      thrown exception. */
  function Parse(s: string): (r: Option<Interval>)
    ensures r.Some? ==> !r.value.invert
  {
    ParseDuration(Scanned(s))
  }

  /** A duration: `P`, then years, months, weeks and days in that order, then optionally `T`
      with hours, minutes and seconds in that order; each element optional, but at least one
      element in all and at least one after a `T`. A week adds seven days. */
  function ParseDuration(s: string): (r: Option<Interval>)
    ensures r.Some? ==> !r.value.invert
  {
    if s == [] || s[0] != 'P' then None
    else
      var (date, time) := SplitTime(s[1..]);
      FromParts(date, time)
  }

  /** The text before the first `T`, and the text after it when there is one. */
  function SplitTime(body: string): (r: (string, Option<string>))
    ensures r.1.None? ==> r.0 == body
    ensures r.1.Some? ==> body == r.0 + ['T'] + r.1.value && 'T' !in r.0
  {
    if 'T' in body then
      var i := IndexOf(body, 'T');
      assert body == body[..i] + ['T'] + body[i + 1..];
      (body[..i], Some(body[i + 1..]))
    else (body, None)
  }

  /** The interval a date part and an optional time part denote, if they are well formed. */
  function FromParts(date: string, time: Option<string>): (r: Option<Interval>)
    ensures r.Some? ==> !r.value.invert
  {
    var dc := Components(date);
    var tc := Components(if time.Some? then time.value else []);
    if dc.None? || tc.None? then None
    else if !InOrder(dc.value, "YMWD") || !InOrder(tc.value, "HMS") then None
    else if (time.Some? && tc.value == []) || (time.None? && dc.value == []) then None
    else Some(FromComponents(dc.value, tc.value))
  }

  /** The interval the date and time elements give: missing ones count as zero, and a week as
      seven days. */
  function FromComponents(dc: seq<Component>, tc: seq<Component>): Interval {
    Interval(false,
      Amount(dc, 'Y'), Amount(dc, 'M'), 7 * Amount(dc, 'W') + Amount(dc, 'D'),
      Amount(tc, 'H'), Amount(tc, 'M'), Amount(tc, 'S'))
  }

  lemma {:induction false} DigitRunOfNumber(ds: string, u: char, rest: string)
    requires AllDigits(ds) && !IsDigit(u)
    ensures DigitRun(ds + [u] + rest) == |ds|
    decreases |ds|
  {
    var s := ds + [u] + rest;
    if ds == [] {
      assert s[0] == u;
    } else {
      assert s[1..] == ds[1..] + [u] + rest;
      DigitRunOfNumber(ds[1..], u, rest);
    }
  }

  lemma ComponentsOfElement(n: nat, u: char, rest: string, cs: seq<Component>)
    requires !IsDigit(u) && Components(rest) == Some(cs)
    ensures Components(Element(n, u) + rest) == Some([Component(n, u)] + cs)
  {
    var ds := Pad2(n);
    var s := ds + [u] + rest;
    assert Element(n, u) + rest == s;
    DigitRunOfNumber(ds, u, rest);
    assert s[..|ds|] == ds;
    assert s[|ds|] == u;
    assert s[|ds| + 1..] == rest;
    ValueOfPad2(n);
  }

  lemma NoLetterInDigits(ds: string, c: char)
    requires AllDigits(ds) && !IsDigit(c)
    ensures c !in ds
  {
  }

  lemma ComponentsOfOne(c: nat, w: char)
    requires !IsDigit(w)
    ensures Components(Element(c, w)) == Some([Component(c, w)])
  {
    assert Components([]) == Some([]);
    ComponentsOfElement(c, w, [], []);
    assert Element(c, w) + [] == Element(c, w);
    assert [Component(c, w)] + [] == [Component(c, w)];
  }

  lemma ComponentsOfTwo(b: nat, v: char, c: nat, w: char)
    requires !IsDigit(v) && !IsDigit(w)
    ensures Components(Element(b, v) + Element(c, w)) == Some([Component(b, v), Component(c, w)])
  {
    ComponentsOfOne(c, w);
    ComponentsOfElement(b, v, Element(c, w), [Component(c, w)]);
    assert [Component(b, v)] + [Component(c, w)] == [Component(b, v), Component(c, w)];
  }

  /** Three elements in a row. */
  lemma ComponentsOfThree(a: nat, u: char, b: nat, v: char, c: nat, w: char)
    requires !IsDigit(u) && !IsDigit(v) && !IsDigit(w)
    ensures Components(Element(a, u) + Element(b, v) + Element(c, w)) ==
      Some([Component(a, u), Component(b, v), Component(c, w)])
  {
    ComponentsOfTwo(b, v, c, w);
    ComponentsOfElement(a, u, Element(b, v) + Element(c, w), [Component(b, v), Component(c, w)]);
    Associate(Element(a, u), Element(b, v), Element(c, w));
    ConsOfTwo(Component(a, u), Component(b, v), Component(c, w));
  }

  /** Regrouping a concatenation, stated once on abstract sequences so that proofs about long
      formatted strings need not rediscover it. */
  lemma Associate<T>(x: seq<T>, y: seq<T>, z: seq<T>)
    ensures x + y + z == x + (y + z)
  {
  }

  /** A three-element sequence built from a head and a two-element tail, stated once so that
      proofs over element lists need not rediscover it. */
  lemma ConsOfTwo<T>(x: T, y: T, z: T)
    ensures [x] + [y, z] == [x, y, z]
  {
  }

  lemma DatePartHasNoT(iv: Interval)
    ensures 'T' !in DatePart(iv)
  {
    NoLetterInDigits(Pad2(iv.years), 'T');
    NoLetterInDigits(Pad2(iv.months), 'T');
    NoLetterInDigits(Pad2(iv.days), 'T');
    assert DatePart(iv) == Pad2(iv.years) + ['Y'] + Pad2(iv.months) + ['M'] + Pad2(iv.days) + ['D'];
  }

  lemma IndexOfFirst(a: string, c: char, b: string)
    requires c !in a
    ensures IndexOf(a + [c] + b, c) == |a|
  {
    var s := a + [c] + b;
    assert s[|a|] == c;
  }

  /** A string with a `T` parses as its date part and its time part. */
  lemma ParseSplits(d: string, t: string)
    requires 'T' !in d
    ensures ParseDuration("P" + d + "T" + t) == FromParts(d, Some(t))
  {
    var body := d + ['T'] + t;
    assert ("P" + d + "T" + t)[1..] == body;
    IndexOfFirst(d, 'T', t);
    assert body[..|d|] == d;
    assert body[|d| + 1..] == t;
    assert SplitTime(body) == (d, Some(t));
  }

  /** The parse of a string with both a date and a time part, in terms of their elements. */
  lemma ParseOfParts(d: string, t: string, dc: seq<Component>, tc: seq<Component>)
    requires 'T' !in d && Components(d) == Some(dc) && Components(t) == Some(tc)
    requires InOrder(dc, "YMWD") && InOrder(tc, "HMS") && tc != []
    ensures ParseDuration("P" + d + "T" + t) == Some(FromComponents(dc, tc))
  {
    ParseSplits(d, t);
  }

  lemma DateOrder(y: nat, m: nat, d: nat)
    ensures InOrder([Component(y, 'Y'), Component(m, 'M'), Component(d, 'D')], "YMWD")
  {
    var c3 := [Component(d, 'D')];
    var c2 := [Component(m, 'M')] + c3;
    var c1 := [Component(y, 'Y')] + c2;
    assert InOrder(c3[1..], "");
    assert InOrder(c3, "D");
    assert InOrder(c3, "WD");
    assert c2[1..] == c3;
    assert InOrder(c2, "MWD");
    assert c1[1..] == c2;
    assert c1 == [Component(y, 'Y'), Component(m, 'M'), Component(d, 'D')];
  }

  lemma TimeOrder(h: nat, i: nat, s: nat)
    ensures InOrder([Component(h, 'H'), Component(i, 'M'), Component(s, 'S')], "HMS")
  {
    var c3 := [Component(s, 'S')];
    var c2 := [Component(i, 'M')] + c3;
    var c1 := [Component(h, 'H')] + c2;
    assert InOrder(c3[1..], "");
    assert InOrder(c3, "S");
    assert c2[1..] == c3;
    assert InOrder(c2, "MS");
    assert c1[1..] == c2;
    assert c1 == [Component(h, 'H'), Component(i, 'M'), Component(s, 'S')];
  }

  /** Text whose first and last characters are neither white space nor skipped by the
      scanner. */
  predicate Unpadded(w: string) {
    w != [] && !IsSpace(w[0]) && !IsSkipped(w[0]) && !IsSpace(w[|w| - 1]) && !IsSkipped(w[|w| - 1])
  }

  lemma StripUnpadded(w: string, cls: CharClass)
    requires w != [] && !InClass(w[0], cls) && !InClass(w[|w| - 1], cls)
    ensures StripEnds(w, cls) == w
  {
  }

  /** Unpadded text is scanned as it is. */
  lemma ScannedAsIs(w: string)
    requires Unpadded(w)
    ensures Scanned(w) == w && Parse(w) == ParseDuration(w)
  {
    StripUnpadded(w, Space);
    StripUnpadded(w, Skipped);
  }

  /** Everything leading stripping removes is in `cls`. */
  lemma {:induction false} LeadingRemovesOnly(s: string, cls: CharClass)
    ensures All(s[..|s| - |StripLeading(s, cls)|], cls)
    decreases |s|
  {
    if s != [] && InClass(s[0], cls) {
      LeadingRemovesOnly(s[1..], cls);
      var k := |s| - |StripLeading(s, cls)|;
      forall i | 0 <= i < k ensures InClass(s[..k][i], cls) {
        if i > 0 {
          assert s[..k][i] == s[1..][..k - 1][i - 1];
        }
      }
    }
  }

  /** Everything trailing stripping removes is in `cls`. */
  lemma {:induction false} TrailingRemovesOnly(s: string, cls: CharClass)
    ensures All(s[|StripTrailing(s, cls)|..], cls)
    decreases |s|
  {
    if s != [] && InClass(s[|s| - 1], cls) {
      var p := s[..|s| - 1];
      TrailingRemovesOnly(p, cls);
      var m := |StripTrailing(s, cls)|;
      forall i | 0 <= i < |s| - m ensures InClass(s[m..][i], cls) {
        if m + i < |s| - 1 {
          assert s[m..][i] == p[m..][i];
        }
      }
    }
  }

  lemma {:induction false} StripLeadingSkips(s: string, i: nat, cls: CharClass)
    requires i <= |s| && All(s[..i], cls) && (i == |s| || !InClass(s[i], cls))
    ensures StripLeading(s, cls) == s[i..]
    decreases i
  {
    if i > 0 {
      assert InClass(s[..i][0], cls);
      assert s[1..][..i - 1] == s[1..i];
      StripLeadingSkips(s[1..], i - 1, cls);
    }
  }

  lemma {:induction false} StripTrailingSkips(s: string, j: nat, cls: CharClass)
    requires j <= |s| && All(s[j..], cls) && (j == 0 || !InClass(s[j - 1], cls))
    ensures StripTrailing(s, cls) == s[..j]
    decreases |s| - j
  {
    if j < |s| {
      assert InClass(s[j..][|s| - j - 1], cls);
      var p := s[..|s| - 1];
      assert p[j..] == s[j..|s| - 1];
      StripTrailingSkips(p, j, cls);
      assert p[..j] == s[..j];
    }
  }

  /** Characters in `cls` before and after a text are stripped: the text alone is left. */
  lemma StripPadded(pre: string, w: string, post: string, cls: CharClass)
    requires All(pre, cls) && All(post, cls)
    requires w != [] && !InClass(w[0], cls) && !InClass(w[|w| - 1], cls)
    ensures StripEnds(pre + w + post, cls) == w
  {
    var s := pre + w + post;
    assert s[..|pre|] == pre;
    assert s[|pre|] == w[0];
    StripLeadingSkips(s, |pre|, cls);
    var t := s[|pre|..];
    assert t == w + post;
    assert t[..|w|] == w;
    assert t[|w|..] == post;
    assert t[|w| - 1] == w[|w| - 1];
    StripTrailingSkips(t, |w|, cls);
  }

  /** Leading stripping stops at the first character not in `cls`. */
  lemma LeadingStopsAt(s: string, n: nat, cls: CharClass)
    requires n < |s| && !InClass(s[n], cls)
    ensures |s| - |StripLeading(s, cls)| <= n
  {
    LeadingRemovesOnly(s, cls);
  }

  /** Leading stripping passes over a prefix made of characters in `cls`. */
  lemma LeadingPassesOver(s: string, n: nat, cls: CharClass)
    requires n <= |s| && All(s[..n], cls)
    ensures |s| - |StripLeading(s, cls)| >= n
  {
    var r := StripLeading(s, cls);
    var k := |s| - |r|;
  }

  /** Trailing stripping stops at the last character not in `cls`. */
  lemma TrailingStopsAt(s: string, n: nat, cls: CharClass)
    requires n < |s| && !InClass(s[n], cls)
    ensures |StripTrailing(s, cls)| > n
  {
    TrailingRemovesOnly(s, cls);
  }

  /** Trailing stripping passes over a suffix made of characters in `cls`. */
  lemma TrailingPassesOver(s: string, n: nat, cls: CharClass)
    requires n <= |s| && All(s[n..], cls)
    ensures |StripTrailing(s, cls)| <= n
  {
    var r := StripTrailing(s, cls);
  }

  /** Trimming white space from the front passes over `a` and stops within `b` or at `rest`:
      what is left of `b` is made of skipped characters. */
  lemma LeadingTrim(a: string, b: string, rest: string) returns (pre: string)
    requires All(a, Space) && All(b, Skipped) && rest != [] && !IsSpace(rest[0])
    ensures StripLeading(a + b + rest, Space) == pre + rest && All(pre, Skipped)
  {
    var s := a + b + rest;
    var i := |a| + |b|;
    assert s[..|a|] == a;
    assert s[i] == rest[0];
    LeadingPassesOver(s, |a|, Space);
    LeadingStopsAt(s, i, Space);
    var k := |s| - |StripLeading(s, Space)|;
    pre := s[k..i];
    assert s[k..] == pre + rest;
    forall x | 0 <= x < |pre| ensures InClass(pre[x], Skipped) {
      assert pre[x] == b[k - |a| + x];
    }
  }

  /** Trimming white space from the back passes over `d` and stops within `c` or at `rest`:
      what is left of `c` is made of skipped characters. */
  lemma TrailingTrim(rest: string, c: string, d: string) returns (post: string)
    requires All(c, Skipped) && All(d, Space) && rest != [] && !IsSpace(rest[|rest| - 1])
    ensures StripTrailing(rest + c + d, Space) == rest + post && All(post, Skipped)
  {
    var s := rest + c + d;
    var e := |rest| + |c|;
    assert s[e..] == d;
    assert s[|rest| - 1] == rest[|rest| - 1];
    TrailingPassesOver(s, e, Space);
    TrailingStopsAt(s, |rest| - 1, Space);
    var m := |StripTrailing(s, Space)|;
    post := s[|rest|..m];
    assert s[..m] == rest + post;
    forall x | 0 <= x < |post| ensures InClass(post[x], Skipped) {
      assert post[x] == c[x];
    }
  }

  /** Padding the constructor passes over: white space at the outer ends, and the scanner's
      skipped characters next to the duration. The padded text parses as the text does. */
  lemma PaddingIgnored(a: string, b: string, w: string, c: string, d: string)
    requires All(a, Space) && All(b, Skipped) && All(c, Skipped) && All(d, Space)
    requires Unpadded(w)
    ensures Parse(a + b + w + c + d) == Parse(w)
  {
    var pre, post := TrimStage(a, b, w, c, d);
    StripPadded(pre, w, post, Skipped);
    ScannedAsIs(w);
  }

  /** After the white-space trim, only skipped characters are left around the duration. */
  lemma TrimStage(a: string, b: string, w: string, c: string, d: string) returns (pre: string, post: string)
    requires All(a, Space) && All(b, Skipped) && All(c, Skipped) && All(d, Space)
    requires Unpadded(w)
    ensures StripEnds(a + b + w + c + d, Space) == pre + w + post
    ensures All(pre, Skipped) && All(post, Skipped)
  {
    assert a + b + w + c + d == a + b + (w + c + d);
    pre := LeadingTrim(a, b, w + c + d);
    assert pre + (w + c + d) == (pre + w) + c + d;
    var tail := TrailingTrim(pre + w, c, d);
    post := tail;
  }

  /** White space is trimmed only at the outer ends: a carriage return between a duration
      and a skipped `.` is left to the scanner, which rejects it. */
  lemma InnerSpaceRejected(w: string)
    requires Unpadded(w)
    ensures Parse(w + "\r.") == None
  {
    InnerSpaceKept(w);
    DurationEndsInDesignator(w + "\r");
  }

  /** A carriage return before a trailing `.` survives both stages. */
  lemma InnerSpaceKept(w: string)
    requires Unpadded(w)
    ensures Scanned(w + "\r.") == w + "\r"
  {
    var x := w + ['\r'];
    var s := x + ['.'];
    assert s == w + "\r.";
    assert s[0] == w[0];
    StripUnpadded(s, Space);
    TrailingDotStripped(x);
  }

  /** A final `.` is skipped, and stripping stops before a character the scanner rejects. */
  lemma TrailingDotStripped(x: string)
    requires x != [] && !IsSkipped(x[|x| - 1])
    ensures StripTrailing(x + ['.'], Skipped) == x
  {
    assert (x + ['.'])[..|x|] == x;
  }

  /** Every duration ends with one of the designator letters. */
  lemma DurationEndsInDesignator(s: string)
    ensures ParseDuration(s).Some? ==> s != [] && s[|s| - 1] in "YMWDHS"
  {
    if ParseDuration(s).Some? {
      var (date, time) := SplitTime(s[1..]);
      if time.Some? {
        var t := time.value;
        var tc := Components(t).value;
        assert s == ['P'] + date + ['T'] + t;
        ComponentsEndInDesignator(t);
        InOrderWithin(tc, "HMS");
        assert s[|s| - 1] == tc[|tc| - 1].designator;
      } else {
        var dc := Components(date).value;
        ComponentsEndInDesignator(date);
        InOrderWithin(dc, "YMWD");
        assert s[|s| - 1] == dc[|dc| - 1].designator;
      }
    }
  }

  /** A non-empty list of elements ends with the last element's designator. */
  lemma {:induction false} ComponentsEndInDesignator(z: string)
    requires z != [] && Components(z).Some?
    ensures var cs := Components(z).value; cs != [] && z[|z| - 1] == cs[|cs| - 1].designator
    decreases |z|
  {
    var k := DigitRun(z);
    var rest := z[k + 1..];
    if rest != [] {
      ComponentsEndInDesignator(rest);
      assert z[|z| - 1] == rest[|rest| - 1];
    }
  }

  /** Elements in order use only the designators of `order`. */
  lemma {:induction false} InOrderWithin(cs: seq<Component>, order: string)
    requires InOrder(cs, order)
    ensures forall i :: 0 <= i < |cs| ==> cs[i].designator in order
    decreases |cs| + |order|
  {
    if cs != [] {
      if cs[0].designator == order[0] {
        InOrderWithin(cs[1..], order[1..]);
        assert forall i :: 1 <= i < |cs| ==> cs[i] == cs[1..][i - 1];
      } else {
        InOrderWithin(cs, order[1..]);
      }
    }
  }

  /** A bare `P`, a `P` with an empty time part, and the empty text are all rejected. */
  lemma EmptyDurationsRejected()
    ensures Parse("P") == None && Parse("PT") == None && Parse("") == None
  {
    BareDesignatorRejected();
    EmptyTimePartRejected();
  }

  lemma BareDesignatorRejected()
    ensures Parse("P") == None
  {
    ScannedAsIs("P");
    BareDesignatorDuration();
  }

  lemma BareDesignatorDuration()
    ensures ParseDuration("P") == None
  {
    assert "P"[1..] == [];
    assert Components([]) == Some([]);
  }

  lemma EmptyTimePartRejected()
    ensures Parse("PT") == None
  {
    ScannedAsIs("PT");
    EmptyTimePartDuration();
  }

  lemma EmptyTimePartDuration()
    ensures ParseDuration("PT") == None
  {
    assert "PT"[1..] == "T";
    assert IndexOf("T", 'T') == 0;
    assert SplitTime("T") == ([], Some([]));
    assert Components([]) == Some([]);
  }

  /** In this model, which reads only the designator form, text that starts with neither white
      space, a skipped character nor `P` is rejected. */
  lemma ParseNeedsP(s: string)
    requires s != [] && !IsSpace(s[0]) && !IsSkipped(s[0]) && s[0] != 'P'
    ensures Parse(s) == None
  {
    KeepsFirst(s, Space);
    KeepsFirst(StripEnds(s, Space), Skipped);
  }

  /** Stripping leaves a first character that is not in `cls` where it is. */
  lemma KeepsFirst(s: string, cls: CharClass)
    requires s != [] && !InClass(s[0], cls)
    ensures StripEnds(s, cls) != [] && StripEnds(s, cls)[0] == s[0]
  {
    var t := StripLeading(s, cls);
    assert t == s;
    TrailingStopsAt(t, 0, cls);
  }

  /** The designator form starts with `P` and ends with the seconds designator `S`. */
  lemma DesignatorFormEdges(iv: Interval)
    ensures |DesignatorForm(iv)| > 1
    ensures DesignatorForm(iv)[0] == 'P' && DesignatorForm(iv)[|DesignatorForm(iv)| - 1] == 'S'
  {
    var head := Element(iv.hours, 'H') + Element(iv.minutes, 'M') + Pad2(iv.seconds);
    assert TimePart(iv) == head + ['S'];
    LastOfAppend("P" + DatePart(iv) + "T", head, 'S');
  }

  /** The last character of a string ending in `u`, stated on abstract strings so that proofs
      about formatted text need not unfold the text to find it. */
  lemma LastOfAppend(x: string, y: string, u: char)
    ensures |x + (y + [u])| > |x| && (x + (y + [u]))[|x + (y + [u])| - 1] == u
  {
  }

  /** The constructor reads back every interval written in the designator form, direction
      flag cleared. */
  lemma ParseDesignatorForm(iv: Interval)
    ensures Parse(DesignatorForm(iv)) == Some(iv.(invert := false))
  {
    DesignatorFormEdges(iv);
    ScannedAsIs(DesignatorForm(iv));
    DurationOfDesignatorForm(iv);
  }

  lemma DurationOfDesignatorForm(iv: Interval)
    ensures ParseDuration(DesignatorForm(iv)) == Some(iv.(invert := false))
  {
    var dc := [Component(iv.years, 'Y'), Component(iv.months, 'M'), Component(iv.days, 'D')];
    var tc := [Component(iv.hours, 'H'), Component(iv.minutes, 'M'), Component(iv.seconds, 'S')];
    DatePartHasNoT(iv);
    ComponentsOfThree(iv.years, 'Y', iv.months, 'M', iv.days, 'D');
    ComponentsOfThree(iv.hours, 'H', iv.minutes, 'M', iv.seconds, 'S');
    DateOrder(iv.years, iv.months, iv.days);
    TimeOrder(iv.hours, iv.minutes, iv.seconds);
    ParseOfParts(DatePart(iv), TimePart(iv), dc, tc);
    FromOwnComponents(iv);
  }

  lemma AmountsOfThree(a: nat, u: char, b: nat, v: char, c: nat, w: char, d: char)
    requires u != v && u != w && v != w
    ensures Amount([Component(a, u), Component(b, v), Component(c, w)], d) ==
      if d == u then a else if d == v then b else if d == w then c else 0
  {
    var cs := [Component(a, u), Component(b, v), Component(c, w)];
    assert cs[1..] == [Component(b, v), Component(c, w)];
    assert cs[1..][1..] == [Component(c, w)];
    assert cs[1..][1..][1..] == [];
    assert Amount(cs[1..][1..], d) == if d == w then c else 0;
    assert Amount(cs[1..], d) == if d == v then b else if d == w then c else 0;
  }

  lemma FromOwnComponents(iv: Interval)
    ensures FromComponents(
      [Component(iv.years, 'Y'), Component(iv.months, 'M'), Component(iv.days, 'D')],
      [Component(iv.hours, 'H'), Component(iv.minutes, 'M'), Component(iv.seconds, 'S')])
      == iv.(invert := false)
  {
    var y, m, d := iv.years, iv.months, iv.days;
    AmountsOfThree(y, 'Y', m, 'M', d, 'D', 'Y');
    AmountsOfThree(y, 'Y', m, 'M', d, 'D', 'M');
    AmountsOfThree(y, 'Y', m, 'M', d, 'D', 'W');
    AmountsOfThree(y, 'Y', m, 'M', d, 'D', 'D');
    var h, i, s := iv.hours, iv.minutes, iv.seconds;
    AmountsOfThree(h, 'H', i, 'M', s, 'S', 'H');
    AmountsOfThree(h, 'H', i, 'M', s, 'S', 'M');
    AmountsOfThree(h, 'H', i, 'M', s, 'S', 'S');
  }

  /** A week element alone is seven days per week. */
  lemma WeeksAreSevenDays(n: nat)
    ensures Parse("P" + Element(n, 'W')) == Some(Interval(false, 0, 0, 7 * n, 0, 0, 0))
  {
    var body := Element(n, 'W');
    assert body == Pad2(n) + ['W'];
    LastOfAppend("P", Pad2(n), 'W');
    ScannedAsIs("P" + body);
    WeeksDuration(n);
  }

  lemma WeeksDuration(n: nat)
    ensures ParseDuration("P" + Element(n, 'W')) == Some(Interval(false, 0, 0, 7 * n, 0, 0, 0))
  {
    var body := Element(n, 'W');
    assert ("P" + body)[1..] == body;
    NoLetterInDigits(Pad2(n), 'T');
    assert 'T' !in body;
    assert SplitTime(body) == (body, None);
    ComponentsOfOne(n, 'W');
    var dc := [Component(n, 'W')];
    assert InOrder(dc, "YMWD") by {
      assert InOrder(dc[1..], "D");
      assert "WD"[1..] == "D";
      assert InOrder(dc, "WD");
      assert "MWD"[1..] == "WD";
      assert InOrder(dc, "MWD");
    }
    assert Components([]) == Some([]);
    assert dc[1..] == [];
    assert Amount(dc[1..], 'Y') == 0 && Amount(dc[1..], 'M') == 0 && Amount(dc[1..], 'D') == 0;
    assert Amount(dc, 'Y') == 0 && Amount(dc, 'M') == 0 && Amount(dc, 'W') == n && Amount(dc, 'D') == 0;
    assert FromComponents(dc, []) == Interval(false, 0, 0, 7 * n, 0, 0, 0);
  }
}

=== FILE: mssql_alter_table.dfy ===
/** `alterTable` of the MS SQL schema manager: a validation pass that rejects every change
    kind but `add` and `remove`, then a build pass that renders one `ALTER TABLE` statement. */
module MsSqlAlterTable {
  import opened Wrappers
  import opened Php
  import opened Connection

  /** The value stored under one change kind: a PHP array of field entries (name to field
      definition), or a value that is not an array. */
  datatype ChangeValue<F> = Fields(entries: Array<F>) | NotArray

  /** The `$changes` argument: change kind to the entries of that kind, in iteration order. */
  type Changes<F> = Array<ChangeValue<F>>

  /** The connection services `alterTable` calls: forced identifier quoting, the column
      declaration renderer, and statement execution. */
  datatype Services<!F> = Services(
    quoteIdentifier: string -> string,
    getDeclaration: (string, F) -> string,
    exec: string -> ExecResult)

  /** The thrown `Doctrine_Export_Exception` or a driver error from `exec`. */
  datatype AlterError = ExportError(message: string) | ExecError(error: DbError)

  /** `false` when there was nothing to alter, otherwise the value `exec` returned. */
  datatype AlterValue = NothingToAlter | Executed(affectedRows: int)

  /** The statements handed to `exec`, in order, and what the call returned or threw. */
  datatype AlterResult = AlterResult(statements: seq<string>, outcome: Result<AlterValue, AlterError>)

  predicate Supported(kind: string) {
    kind == "add" || kind == "remove"
  }

  function UnsupportedMessage(kind: string): string {
    "alterTable: change type \"" + kind + "\" not yet supported"
  }

  /** The validation pass: the first change kind, in iteration order, that is neither `add`
      nor `remove`. */
  function FirstUnsupported<F>(changes: Changes<F>): (r: Option<string>)
    ensures r.None? <==> forall i :: 0 <= i < |changes| ==> Supported(changes[i].0)
    ensures r.Some? ==>
      exists i :: 0 <= i < |changes| && changes[i].0 == r.value && !Supported(r.value)
                  && forall j :: 0 <= j < i ==> Supported(changes[j].0)
    decreases |changes|
  {
    if changes == [] then None
    else if Supported(changes[0].0) then
      var r := FirstUnsupported(changes[1..]);
      FirstUnsupportedShift(changes, r);
      r
    else Some(changes[0].0)
  }

  lemma FirstUnsupportedShift<F>(changes: Changes<F>, r: Option<string>)
    requires changes != [] && Supported(changes[0].0)
    requires r.Some? ==>
      exists i :: 0 <= i < |changes[1..]| && changes[1..][i].0 == r.value && !Supported(r.value)
                  && forall j :: 0 <= j < i ==> Supported(changes[1..][j].0)
    ensures r.Some? ==>
      exists i :: 0 <= i < |changes| && changes[i].0 == r.value && !Supported(r.value)
                  && forall j :: 0 <= j < i ==> Supported(changes[j].0)
  {
    if r.Some? {
      var i :| 0 <= i < |changes[1..]| && changes[1..][i].0 == r.value && !Supported(r.value)
               && forall j :: 0 <= j < i ==> Supported(changes[1..][j].0);
      assert changes[i + 1].0 == r.value;
      forall j | 0 <= j < i + 1 ensures Supported(changes[j].0) {
        if j > 0 { assert changes[j] == changes[1..][j - 1]; }
      }
    }
  }

  /** The entries under `kind`, when they form an array; `empty()` and `is_array` skip the
      rest. */
  function GroupEntries<F>(changes: Changes<F>, kind: string): Array<F> {
    var v := Get(changes, kind);
    if v.Some? && v.value.Fields? then v.value.entries else []
  }

  /** One `ADD <declaration>` clause per added field. */
  function AddClauses<F>(changes: Changes<F>, services: Services<F>): seq<string> {
    var adds := GroupEntries(changes, "add");
    seq(|adds|, i requires 0 <= i < |adds| => "ADD " + services.getDeclaration(adds[i].0, adds[i].1))
  }

  /** One `DROP COLUMN` clause per removed field, its name rendered by `render`. */
  function DropClauses<F>(removes: Array<F>, render: string -> string): (r: seq<string>)
    ensures |r| == |removes|
    ensures forall i :: 0 <= i < |removes| ==> r[i] == "DROP COLUMN " + render(removes[i].0)
  {
    seq(|removes|, i requires 0 <= i < |removes| => "DROP COLUMN " + render(removes[i].0))
  }

  /** The clauses as written: the `ADD` clauses, then the `DROP COLUMN` clauses with each
      removed name as given. */
  function Clauses<F>(changes: Changes<F>, services: Services<F>): (r: seq<string>)
    ensures var adds := GroupEntries(changes, "add");
            var removes := GroupEntries(changes, "remove");
      && |r| == |adds| + |removes|
      && (forall i :: 0 <= i < |adds| ==> r[i] == "ADD " + services.getDeclaration(adds[i].0, adds[i].1))
      && (forall i :: 0 <= i < |removes| ==> r[|adds| + i] == "DROP COLUMN " + removes[i].0)
  {
    AddClauses(changes, services) + DropClauses(GroupEntries(changes, "remove"), s => s)
  }

  /** The clauses with the removed names quoted, as the quoted name the loop computes and never
      uses evidently meant. */
  function QuotedClauses<F>(changes: Changes<F>, services: Services<F>): (r: seq<string>)
    ensures var adds := GroupEntries(changes, "add");
            var removes := GroupEntries(changes, "remove");
      && |r| == |adds| + |removes|
      && (forall i :: 0 <= i < |adds| ==> r[i] == "ADD " + services.getDeclaration(adds[i].0, adds[i].1))
      && (forall i :: 0 <= i < |removes| ==>
            r[|adds| + i] == "DROP COLUMN " + services.quoteIdentifier(removes[i].0))
  {
    AddClauses(changes, services) + DropClauses(GroupEntries(changes, "remove"), services.quoteIdentifier)
  }

  /** The build loop: `if ($query) $query .= ', '; $query .= $clause;` for each clause. */
  function AppendClauses(query: string, clauses: seq<string>): (r: string)
    ensures |query| <= |r| && r[..|query|] == query
    ensures AllTruthy(clauses) ==> (Truthy(r) <==> Truthy(query) || clauses != [])
    decreases |clauses|
  {
    if clauses == [] then query
    else
      var next := (if Truthy(query) then query + ", " else query) + clauses[0];
      assert next[..|query|] == query;
      assert AllTruthy(clauses) ==> Truthy(next) && AllTruthy(clauses[1..]);
      var r := AppendClauses(next, clauses[1..]);
      assert r[..|query|] == next[..|query|];
      r
  }

  /** Each part preceded by `sep`. */
  function Prefixed(parts: seq<string>, sep: string): string
    decreases |parts|
  {
    if parts == [] then "" else sep + parts[0] + Prefixed(parts[1..], sep)
  }

  /** The parts separated by `sep`, as PHP's `implode`. */
  function Join(parts: seq<string>, sep: string): string {
    if parts == [] then "" else parts[0] + Prefixed(parts[1..], sep)
  }

  lemma {:induction false} AppendAfterTruthy(query: string, clauses: seq<string>)
    requires Truthy(query)
    ensures AppendClauses(query, clauses) == query + Prefixed(clauses, ", ")
    decreases |clauses|
  {
    if clauses != [] {
      var q := query + ", " + clauses[0];
      var rest := Prefixed(clauses[1..], ", ");
      assert AppendClauses(query, clauses) == AppendClauses(q, clauses[1..]);
      assert Prefixed(clauses, ", ") == ", " + clauses[0] + rest;
      AppendAfterTruthy(q, clauses[1..]);
      Regroup(query, ", ", clauses[0], rest);
    }
  }

  /** Regrouping a concatenation of four parts, stated once on abstract sequences so that the
      build-loop proof need not rediscover it. */
  lemma Regroup<T>(a: seq<T>, b: seq<T>, c: seq<T>, d: seq<T>)
    ensures a + b + c + d == a + (b + c + d)
  {
  }

  /** The build loop joins truthy clauses with ", ", and its result is truthy exactly when
      there is at least one clause. */
  lemma BuildIsJoin(clauses: seq<string>)
    requires AllTruthy(clauses)
    ensures AppendClauses("", clauses) == Join(clauses, ", ")
    ensures Truthy(Join(clauses, ", ")) <==> clauses != []
  {
    if clauses != [] {
      var c := clauses[0];
      assert Truthy(c);
      assert "" + c == c;
      assert AppendClauses("", clauses) == AppendClauses(c, clauses[1..]);
      AppendAfterTruthy(c, clauses[1..]);
      var p := Prefixed(clauses[1..], ", ");
      TruthyExtends(c, p);
    }
  }

  lemma TruthyExtends(c: string, p: string)
    requires Truthy(c)
    ensures Truthy(c + p)
  {
    if |c + p| == 1 {
      assert c + p == c;
    }
  }

  predicate AllTruthy(clauses: seq<string>) {
    forall i :: 0 <= i < |clauses| ==> Truthy(clauses[i])
  }

  lemma ClausesAreTruthy<F>(changes: Changes<F>, services: Services<F>)
    ensures AllTruthy(Clauses(changes, services))
    ensures AllTruthy(QuotedClauses(changes, services))
  {
    var adds := GroupEntries(changes, "add");
    var cs := Clauses(changes, services);
    forall i | 0 <= i < |cs| ensures Truthy(cs[i]) {
      if i < |adds| {
        assert cs[i] == "ADD " + services.getDeclaration(adds[i].0, adds[i].1);
      } else {
        assert cs[|adds| + (i - |adds|)] == cs[i];
      }
    }
    var qs := QuotedClauses(changes, services);
    forall i | 0 <= i < |qs| ensures Truthy(qs[i]) {
      if i < |adds| {
        assert qs[i] == "ADD " + services.getDeclaration(adds[i].0, adds[i].1);
      } else {
        assert qs[|adds| + (i - |adds|)] == qs[i];
      }
    }
  }

  /** `alterTable($name, $changes, $check)`. */
  function AlterTable<F>(name: string, changes: Changes<F>, check: bool, services: Services<F>): (r: AlterResult)
    ensures (exists i :: 0 <= i < |changes| && !Supported(changes[i].0)) ==>
      r.statements == [] && r.outcome.Err? && r.outcome.error.ExportError?
    ensures (forall i :: 0 <= i < |changes| ==> Supported(changes[i].0)) ==>
      (r.statements == [] <==> Clauses(changes, services) == [])
    ensures r.outcome == Ok(NothingToAlter) <==>
      FirstUnsupported(changes).None? && Clauses(changes, services) == []
    ensures |r.statements| <= 1
    ensures r.statements != [] ==>
      && r.statements[0] == "ALTER TABLE " + services.quoteIdentifier(name) + " " + Join(Clauses(changes, services), ", ")
      && r.outcome == match services.exec(r.statements[0])
                      case Affected(n) => Ok(Executed(n))
                      case Failed(e) => Err(ExecError(e))
  {
    ClausesAreTruthy(changes, services);
    AlterWith(name, changes, services, Clauses(changes, services))
  }

  /** `alterTable` with the removed names quoted. */
  function AlterTableQuoted<F>(name: string, changes: Changes<F>, check: bool, services: Services<F>): (r: AlterResult)
    ensures (exists i :: 0 <= i < |changes| && !Supported(changes[i].0)) ==>
      r.statements == [] && r.outcome.Err? && r.outcome.error.ExportError?
    ensures (forall i :: 0 <= i < |changes| ==> Supported(changes[i].0)) ==>
      (r.statements == [] <==> QuotedClauses(changes, services) == [])
    ensures r.outcome == Ok(NothingToAlter) <==>
      FirstUnsupported(changes).None? && QuotedClauses(changes, services) == []
    ensures |r.statements| <= 1
    ensures r.statements != [] ==>
      && r.statements[0] == "ALTER TABLE " + services.quoteIdentifier(name) + " " + Join(QuotedClauses(changes, services), ", ")
      && r.outcome == match services.exec(r.statements[0])
                      case Affected(n) => Ok(Executed(n))
                      case Failed(e) => Err(ExecError(e))
  {
    ClausesAreTruthy(changes, services);
    AlterWith(name, changes, services, QuotedClauses(changes, services))
  }

  /** The validation pass, then the build loop over `clauses`, then at most one `exec`. */
  function AlterWith<F>(name: string, changes: Changes<F>, services: Services<F>, clauses: seq<string>): (r: AlterResult)
    requires AllTruthy(clauses)
    ensures (exists i :: 0 <= i < |changes| && !Supported(changes[i].0)) ==>
      r.statements == [] && r.outcome.Err? && r.outcome.error.ExportError?
    ensures (forall i :: 0 <= i < |changes| ==> Supported(changes[i].0)) ==>
      (r.statements == [] <==> clauses == [])
    ensures r.outcome == Ok(NothingToAlter) <==> FirstUnsupported(changes).None? && clauses == []
    ensures |r.statements| <= 1
    ensures r.statements != [] ==>
      && r.statements[0] == "ALTER TABLE " + services.quoteIdentifier(name) + " " + Join(clauses, ", ")
      && r.outcome == match services.exec(r.statements[0])
                      case Affected(n) => Ok(Executed(n))
                      case Failed(e) => Err(ExecError(e))
  {
    match FirstUnsupported(changes)
    case Some(kind) => AlterResult([], Err(ExportError(UnsupportedMessage(kind))))
    case None =>
      var query := AppendClauses("", clauses);
      BuildIsJoin(clauses);
      if !Truthy(query) then AlterResult([], Ok(NothingToAlter))
      else
        var sql := "ALTER TABLE " + services.quoteIdentifier(name) + " " + query;
        AlterResult([sql], match services.exec(sql)
                           case Affected(n) => Ok(Executed(n))
                           case Failed(e) => Err(ExecError(e)))
  }

  /** The exception names the first change kind, in iteration order, that is not supported,
      even when well-formed `add` and `remove` groups are present as well. */
  lemma UnsupportedKindIsNamed<F>(name: string, changes: Changes<F>, check: bool, services: Services<F>, i: nat)
    requires i < |changes| && !Supported(changes[i].0)
    requires forall j :: 0 <= j < i ==> Supported(changes[j].0)
    ensures AlterTable(name, changes, check, services)
            == AlterResult([], Err(ExportError(UnsupportedMessage(changes[i].0))))
  {
    var r := FirstUnsupported(changes);
    var k :| 0 <= k < |changes| && changes[k].0 == r.value && !Supported(r.value)
             && forall j :: 0 <= j < k ==> Supported(changes[j].0);
    assert k == i;
  }

  /** The `$check` flag changes nothing. */
  lemma CheckFlagIgnored<F>(name: string, changes: Changes<F>, services: Services<F>)
    ensures AlterTable(name, changes, true, services) == AlterTable(name, changes, false, services)
  {
  }

  /** As written, the identifier quoting plays no part in the `DROP COLUMN` clauses: the
      removed name goes into the statement as given. */
  lemma DropIgnoresQuoting<F>(changes: Changes<F>, services: Services<F>, quote: string -> string)
    ensures Clauses(changes, services) == Clauses(changes, services.(quoteIdentifier := quote))
  {
  }

  /** A single removal of the column `order`. */
  function DropOrder(): Changes<int> {
    [("remove", Fields([("order", 0)]))]
  }

  lemma DropOrderClauses(services: Services<int>)
    ensures FirstUnsupported(DropOrder()) == None
    ensures Clauses(DropOrder(), services) == ["DROP COLUMN order"]
    ensures QuotedClauses(DropOrder(), services) == ["DROP COLUMN " + services.quoteIdentifier("order")]
  {
    assert Supported(DropOrder()[0].0);
    assert GroupEntries(DropOrder(), "add") == [];
    assert GroupEntries(DropOrder(), "remove") == [("order", 0)];
    assert AddClauses(DropOrder(), services) == [];
    var bare := DropClauses([("order", 0)], s => s);
    assert bare[0] == "DROP COLUMN order";
    assert bare == ["DROP COLUMN order"];
    var quoted := DropClauses([("order", 0)], services.quoteIdentifier);
    assert quoted == ["DROP COLUMN " + services.quoteIdentifier("order")];
  }

  /** A valid change set with a single clause gives a single statement. */
  lemma SingleClause<F>(name: string, changes: Changes<F>, services: Services<F>, clause: string)
    requires FirstUnsupported(changes) == None
    requires Clauses(changes, services) == [clause]
    ensures AlterTable(name, changes, false, services).statements ==
      ["ALTER TABLE " + services.quoteIdentifier(name) + " " + clause]
  {
    assert Join([clause], ", ") == clause;
  }

  lemma SingleQuotedClause<F>(name: string, changes: Changes<F>, services: Services<F>, clause: string)
    requires FirstUnsupported(changes) == None
    requires QuotedClauses(changes, services) == [clause]
    ensures AlterTableQuoted(name, changes, false, services).statements ==
      ["ALTER TABLE " + services.quoteIdentifier(name) + " " + clause]
  {
    assert Join([clause], ", ") == clause;
  }

  /** Removing a column named by a reserved word: as written the statement leaves the name
      bare, although the connection would have bracketed it. */
  lemma ReservedWordDroppedBare(services: Services<int>)
    requires services.quoteIdentifier("t") == "[t]"
    ensures AlterTable("t", DropOrder(), false, services).statements == ["ALTER TABLE " + "[t]" + " " + "DROP COLUMN order"]
  {
    DropOrderClauses(services);
    SingleClause("t", DropOrder(), services, "DROP COLUMN order");
  }

  /** The same removal with the quoted clauses brackets the name. */
  lemma ReservedWordDroppedQuoted(services: Services<int>)
    requires services.quoteIdentifier("t") == "[t]" && services.quoteIdentifier("order") == "[order]"
    ensures AlterTableQuoted("t", DropOrder(), false, services).statements == ["ALTER TABLE " + "[t]" + " " + "DROP COLUMN [order]"]
  {
    DropOrderClauses(services);
    assert "DROP COLUMN " + "[order]" == "DROP COLUMN [order]";
    SingleQuotedClause("t", DropOrder(), services, "DROP COLUMN [order]");
  }
}

=== FILE: mssql_sequences.dfy ===
/** `createSequence` of the MS SQL schema manager: a sequence is a one-column identity table,
    created first and, when the start value is not 1, seeded with an identity insert. The
    model is the list of statements handed to `exec` and what the call returns. */
module MsSqlSequences {
  import opened Wrappers
  import opened Connection
  import Decimal

  /** The connection services `createSequence` uses; `seqcolName` is the connection's
      `seqcol_name` option. */
  datatype Services = Services(
    quoteIdentifier: string -> string,
    getSequenceName: string -> string,
    seqcolName: string,
    exec: string -> ExecResult)

  /** The statements executed, in order, and what the call returned or threw. */
  datatype SequenceResult<+E> = SequenceResult(statements: seq<string>, outcome: Result<bool, E>)

  function SequenceTable(seqName: string, services: Services): string {
    services.quoteIdentifier(services.getSequenceName(seqName))
  }

  function SequenceColumn(services: Services): string {
    services.quoteIdentifier(services.seqcolName)
  }

  /** The identity table whose identity starts at `start`. */
  function CreateStatement(seqName: string, start: int, services: Services): string {
    "CREATE TABLE " + SequenceTable(seqName, services) + " (" + SequenceColumn(services)
    + " INT PRIMARY KEY CLUSTERED IDENTITY(" + Decimal.IntToString(start) + ", 1) NOT NULL)"
  }

  /** The explicit insert of the start value. */
  function SeedStatement(seqName: string, start: int, services: Services): string {
    "SET IDENTITY_INSERT " + SequenceTable(seqName, services) + " ON "
    + "INSERT INTO " + SequenceTable(seqName, services) + " (" + SequenceColumn(services)
    + ") VALUES ( " + Decimal.IntToString(start) + ")"
  }

  /** The compensating drop of the table just created. */
  function DropStatement(seqName: string, services: Services): string {
    "DROP TABLE " + SequenceTable(seqName, services)
  }

  /** The statements in the order they can be issued; every run issues a prefix of them. */
  function Protocol(seqName: string, start: int, services: Services): seq<string> {
    [CreateStatement(seqName, start, services), SeedStatement(seqName, start, services), DropStatement(seqName, services)]
  }

  /** `createSequence($seqName, $start)` as written: a failed create throws; start 1 stops
      after the create; a failed seed is caught, the table dropped, and `true` returned; only
      a failure of that drop escapes. */
  function CreateSequence(seqName: string, start: int, services: Services): (r: SequenceResult<DbError>)
    ensures |r.statements| ==
      if services.exec(CreateStatement(seqName, start, services)).Failed? || start == 1 then 1
      else if services.exec(SeedStatement(seqName, start, services)).Affected? then 2
      else 3
    ensures r.statements == Protocol(seqName, start, services)[..|r.statements|]
    ensures r.outcome.Ok? ==> r.outcome.value
    ensures r.outcome.Err? <==>
      || services.exec(CreateStatement(seqName, start, services)).Failed?
      || (|r.statements| == 3 && services.exec(DropStatement(seqName, services)).Failed?)
    ensures r.outcome.Err? ==>
      r.outcome.error == services.exec(r.statements[|r.statements| - 1]).error
  {
    var create := CreateStatement(seqName, start, services);
    match services.exec(create)
    case Failed(e) => SequenceResult([create], Err(e))
    case Affected(_) =>
      if start == 1 then SequenceResult([create], Ok(true))
      else
        var seed := SeedStatement(seqName, start, services);
        match services.exec(seed)
        case Affected(_) => SequenceResult([create, seed], Ok(true))
        case Failed(_) =>
          var drop := DropStatement(seqName, services);
          match services.exec(drop)
          case Affected(_) => SequenceResult([create, seed, drop], Ok(true))
          case Failed(e) => SequenceResult([create, seed, drop], Err(e))
  }

  /** The create statement fixes the start value: equal statements have equal starts. */
  lemma CreateStatementInjective(seqName: string, a: int, b: int, services: Services)
    requires CreateStatement(seqName, a, services) == CreateStatement(seqName, b, services)
    ensures a == b
  {
    var p := "CREATE TABLE " + SequenceTable(seqName, services) + " (" + SequenceColumn(services)
      + " INT PRIMARY KEY CLUSTERED IDENTITY(";
    var q := ", 1) NOT NULL)";
    assert CreateStatement(seqName, a, services) == p + Decimal.IntToString(a) + q;
    assert CreateStatement(seqName, b, services) == p + Decimal.IntToString(b) + q;
    CancelAround(p, Decimal.IntToString(a), Decimal.IntToString(b), q);
    Decimal.IntToStringInjective(a, b);
  }

  /** Equal texts with the same prefix and suffix have the same middle. */
  lemma CancelAround(p: string, x: string, y: string, q: string)
    requires p + x + q == p + y + q
    ensures x == y
  {
    assert |x| == |y|;
    assert x == (p + x + q)[|p|..|p| + |x|];
    assert y == (p + y + q)[|p|..|p| + |y|];
  }

  /** As written, a seed that fails is reported as success, although the table has just been
      dropped and no sequence is left. */
  lemma SeedFailureReportedAsSuccess(seqName: string, start: int, services: Services)
    requires start != 1
    requires services.exec(CreateStatement(seqName, start, services)).Affected?
    requires services.exec(SeedStatement(seqName, start, services)).Failed?
    requires services.exec(DropStatement(seqName, services)).Affected?
    ensures CreateSequence(seqName, start, services).outcome == Ok(true)
    ensures CreateSequence(seqName, start, services).statements[2] == DropStatement(seqName, services)
  {
  }

  /** Why a sequence could not be created. A failed seed is the primary error; a failure of the
      compensating drop is reported beside it, never instead of it. */
  datatype SequenceError =
    | CreateFailed(createError: DbError)
    | SeedFailed(seedError: DbError, dropError: Option<DbError>)

  /** `createSequence` with the seeding failure reported after the compensating drop. */
  function CreateSequenceReported(seqName: string, start: int, services: Services): (r: SequenceResult<SequenceError>)
    ensures r.statements == CreateSequence(seqName, start, services).statements
    ensures r.outcome.Ok? ==> r.outcome.value
    ensures r.outcome.Ok? <==>
      && services.exec(CreateStatement(seqName, start, services)).Affected?
      && (start == 1 || services.exec(SeedStatement(seqName, start, services)).Affected?)
    ensures start != 1 && services.exec(CreateStatement(seqName, start, services)).Affected?
            && services.exec(SeedStatement(seqName, start, services)).Failed? ==>
      && r.outcome.Err? && r.outcome.error.SeedFailed?
      && r.outcome.error.seedError == services.exec(SeedStatement(seqName, start, services)).error
      && r.outcome.error.dropError ==
        (if services.exec(DropStatement(seqName, services)).Failed?
         then Some(services.exec(DropStatement(seqName, services)).error) else None)
    ensures services.exec(CreateStatement(seqName, start, services)).Failed? ==>
      r.outcome == Err(CreateFailed(services.exec(CreateStatement(seqName, start, services)).error))
  {
    var create := CreateStatement(seqName, start, services);
    match services.exec(create)
    case Failed(e) => SequenceResult([create], Err(CreateFailed(e)))
    case Affected(_) =>
      if start == 1 then SequenceResult([create], Ok(true))
      else
        var seed := SeedStatement(seqName, start, services);
        match services.exec(seed)
        case Affected(_) => SequenceResult([create, seed], Ok(true))
        case Failed(seedError) =>
          var drop := DropStatement(seqName, services);
          match services.exec(drop)
          case Affected(_) => SequenceResult([create, seed, drop], Err(SeedFailed(seedError, None)))
          case Failed(dropError) => SequenceResult([create, seed, drop], Err(SeedFailed(seedError, Some(dropError))))
  }

  /** Every error the written `createSequence` throws is still reported, in the matching case:
      a failed create as such, a failed drop beside the seeding error. */
  lemma ReportedKeepsThrownError(seqName: string, start: int, services: Services)
    ensures var thrown := CreateSequence(seqName, start, services).outcome;
      var reported := CreateSequenceReported(seqName, start, services).outcome;
      thrown.Err? ==>
        && reported.Err?
        && (|| reported.error == CreateFailed(thrown.error)
            || (reported.error.SeedFailed? && reported.error.dropError == Some(thrown.error)))
  {
  }
}

=== FILE: mssql_table_columns.dfy ===
/** `listTableColumns` of the MS SQL schema manager: each row `sp_columns` returns is
    normalised into a column descriptor, stored under its column name. */
module MsSqlTableColumns {
  import opened Wrappers
  import opened Php
  import opened Connection

  /** One fetched catalog row: column name to cell, as the driver returned it. */
  type Row = Array<Cell>

  /** What the data dictionary's `getPortableDeclaration` returns for a row. */
  datatype PortableDeclaration = PortableDeclaration(types: seq<string>, length: Cell, fixed: Cell, unsigned: Cell)

  /** The descriptor built for one column. `portableType` (the source's
      `type` entry) is the first type the declaration lists, absent when it lists none. */
  datatype ColumnDescriptor = ColumnDescriptor(
    name: Cell,
    ntype: string,
    portableType: Option<string>,
    alltypes: seq<string>,
    length: Cell,
    fixed: Cell,
    unsigned: Cell,
    notnull: bool,
    defaultValue: Cell,
    primary: bool)

  /** The connection services `listTableColumns` calls. */
  datatype Services = Services(
    quoteIdentifier: string -> string,
    fetchAssoc: string -> Result<seq<Row>, DbError>,
    getPortableDeclaration: Row -> PortableDeclaration)

  /** `$row[$key]`: a missing key reads as null. */
  function Field(row: Row, key: string): Cell {
    var v := Get(row, key);
    if v.Some? then v.value else Null
  }

  /** The cell a lower-case `key` names in a raw row once its keys are lowered: the value of the
      last entry whose key lowers to `key`. */
  function RawField(raw: Row, key: string): Cell
    decreases |raw|
  {
    if raw == [] then Null
    else if ToLower(raw[|raw| - 1].0) == key then raw[|raw| - 1].1
    else RawField(raw[..|raw| - 1], key)
  }

  lemma {:induction false} LowerKeysField(raw: Row, key: string)
    ensures Field(LowerKeys(raw), key) == RawField(raw, key)
    decreases |raw|
  {
    if raw != [] {
      LowerKeysField(raw[..|raw| - 1], key);
      LowerEntriesPrefix(raw);
      AssignLast(LowerEntries(raw), key);
    }
  }

  /** The text before the first space, or all of `s` when it has none. */
  function UpToSpace(s: string): (r: string)
    ensures ' ' !in r && |r| <= |s| && r == s[..|r|]
    ensures |r| == |s| || s[|r|] == ' '
    decreases |s|
  {
    if s == [] || s[0] == ' ' then []
    else
      var t := UpToSpace(s[1..]);
      assert s[..|t| + 1] == [s[0]] + s[1..][..|t|];
      [s[0]] + t
  }

  lemma {:induction false} UpToSpaceOfWord(w: string, tail: string)
    requires ' ' !in w && (tail == [] || tail[0] == ' ')
    ensures UpToSpace(w + tail) == w
    decreases |w|
  {
    if w != [] {
      UpToSpaceOfWord(w[1..], tail);
      assert (w + tail)[1..] == w[1..] + tail;
    }
  }

  /** `explode(' ', $type_name)` kept to its first two pieces: the base type and the identity
      marker; without a space the marker is empty. */
  function SplitTypeName(t: string): (r: (string, string))
    ensures ' ' !in t ==> r == (t, "")
    ensures ' ' in t ==>
      var base := r.0;
      var identity := r.1;
      var n := |base| + 1 + |identity|;
      && ' ' !in base && ' ' !in identity && n <= |t|
      && t[..|base|] == base && t[|base|] == ' ' && t[|base| + 1..n] == identity
      && (n == |t| || t[n] == ' ')
  {
    if ' ' in t then
      var base := UpToSpace(t);
      var rest := t[|base| + 1..];
      var identity := UpToSpace(rest);
      assert t[|base| + 1..|base| + 1 + |identity|] == rest[..|identity|];
      (base, identity)
    else
      assert t + [] == t;
      UpToSpaceOfWord(t, []);
      (t, "")
  }

  /** Splitting gives back the two words a type name was made of. */
  lemma SplitTypeNameOfWords(base: string, identity: string, tail: string)
    requires ' ' !in base && ' ' !in identity
    requires tail == [] || tail[0] == ' '
    ensures SplitTypeName(base + " " + identity + tail) == (base, identity)
  {
    var t := base + " " + identity + tail;
    assert t[|base|] == ' ';
    assert t == base + (" " + identity + tail);
    UpToSpaceOfWord(base, " " + identity + tail);
    assert t[|base| + 1..] == identity + tail;
    UpToSpaceOfWord(identity, tail);
  }

  /** The native type: `varchar` takes its declared length in parentheses; every other base
      type is kept as is. */
  function NativeType(base: string, length: Cell): (r: string)
    ensures r != base <==> base == "varchar"
    ensures base == "varchar" ==> r == "varchar(" + ToString(length) + ")"
  {
    if base == "varchar" then
      assert |base + "(" + ToString(length) + ")"| > |base|;
      base + "(" + ToString(length) + ")"
    else base
  }

  /** The body of the row loop: normalise one raw row into its descriptor. */
  function DescribeColumn(raw: Row, getPortableDeclaration: Row -> PortableDeclaration): (c: ColumnDescriptor)
    ensures c.name == RawField(raw, "column_name")
    ensures c.defaultValue == RawField(raw, "column_def")
    ensures var split := SplitTypeName(ToString(RawField(raw, "type_name")));
      && c.ntype == NativeType(split.0, RawField(raw, "length"))
      && (c.primary <==> ToLower(split.1) == "identity")
    ensures c.notnull <==> Trim(ToString(RawField(raw, "is_nullable"))) == "NO"
    ensures var split := SplitTypeName(ToString(RawField(raw, "type_name")));
            var decl := getPortableDeclaration(Put(Put(LowerKeys(raw), "type", Str(c.ntype)), "identity", Str(split.1)));
      && c.alltypes == decl.types && c.length == decl.length && c.fixed == decl.fixed && c.unsigned == decl.unsigned
      && c.portableType == if decl.types == [] then None else Some(decl.types[0])
  {
    var row := LowerKeys(raw);
    LowerKeysField(raw, "column_name");
    LowerKeysField(raw, "column_def");
    LowerKeysField(raw, "type_name");
    LowerKeysField(raw, "length");
    LowerKeysField(raw, "is_nullable");
    var split := SplitTypeName(ToString(Field(row, "type_name")));
    var base := split.0;
    var identity := split.1;
    var ntype := NativeType(base, Field(row, "length"));
    var decl := getPortableDeclaration(Put(Put(row, "type", Str(ntype)), "identity", Str(identity)));
    ColumnDescriptor(
      name := Field(row, "column_name"),
      ntype := ntype,
      portableType := if decl.types == [] then None else Some(decl.types[0]),
      alltypes := decl.types,
      length := decl.length,
      fixed := decl.fixed,
      unsigned := decl.unsigned,
      notnull := Trim(ToString(Field(row, "is_nullable"))) == "NO",
      defaultValue := Field(row, "column_def"),
      primary := ToLower(identity) == "identity")
  }

  lemma NoTrimmedPadding(s: string)
    ensures Trim(s) == "NO" <==> BlankPadded(s, "NO")
  {
    TrimEqualsIff(s, "NO");
  }

  /** A column is not-null exactly when its `is_nullable` text is "NO" between blanks. */
  lemma NotNullMeansNo(raw: Row, getPortableDeclaration: Row -> PortableDeclaration)
    ensures DescribeColumn(raw, getPortableDeclaration).notnull <==>
      BlankPadded(ToString(RawField(raw, "is_nullable")), "NO")
  {
    NoTrimmedPadding(ToString(RawField(raw, "is_nullable")));
  }

  /** A type name `<base> <marker>` marks the column primary exactly when the marker is
      `identity` in any letter case. */
  lemma PrimaryMeansIdentityMarker(raw: Row, getPortableDeclaration: Row -> PortableDeclaration,
                                   base: string, marker: string)
    requires ' ' !in base && ' ' !in marker
    requires ToString(RawField(raw, "type_name")) == base + " " + marker
    ensures DescribeColumn(raw, getPortableDeclaration).primary <==> ToLower(marker) == "identity"
    ensures DescribeColumn(raw, getPortableDeclaration).ntype == NativeType(base, RawField(raw, "length"))
  {
    assert base + " " + marker + [] == base + " " + marker;
    SplitTypeNameOfWords(base, marker, []);
  }

  /** The key a descriptor is stored under: its column name as a PHP array key. */
  function ColumnKey(c: ColumnDescriptor): string {
    ToString(c.name)
  }

  /** The key of each row, in row order. */
  function RowKeys(rows: seq<Row>, getPortableDeclaration: Row -> PortableDeclaration): seq<string> {
    seq(|rows|, j requires 0 <= j < |rows| => ColumnKey(DescribeColumn(rows[j], getPortableDeclaration)))
  }

  function DescribeAll(rows: seq<Row>, getPortableDeclaration: Row -> PortableDeclaration): seq<(string, ColumnDescriptor)> {
    Keyed(seq(|rows|, i requires 0 <= i < |rows| => DescribeColumn(rows[i], getPortableDeclaration)))
  }

  /** Each descriptor paired with its key. */
  function Keyed(ds: seq<ColumnDescriptor>): seq<(string, ColumnDescriptor)> {
    seq(|ds|, i requires 0 <= i < |ds| => (ColumnKey(ds[i]), ds[i]))
  }

  lemma KeyedAbsent(ds: seq<ColumnDescriptor>, k: string)
    requires forall j :: 0 <= j < |ds| ==> ColumnKey(ds[j]) != k
    ensures Get(Assign(Keyed(ds)), k) == None
  {
    var es := Keyed(ds);
    assert forall j :: 0 <= j < |es| ==> es[j].0 != k;
    AssignAbsent(es, k);
  }

  lemma KeyedLastWins(ds: seq<ColumnDescriptor>, j: nat)
    requires j < |ds|
    requires forall j' :: j < j' < |ds| ==> ColumnKey(ds[j']) != ColumnKey(ds[j])
    ensures Get(Assign(Keyed(ds)), ColumnKey(ds[j])) == Some(ds[j])
  {
    var es := Keyed(ds);
    assert forall j' :: j < j' < |es| ==> es[j'].0 != es[j].0;
    AssignLastWins(es, j);
  }

  /** The loop `$columns[$val['column_name']] = $description` over all rows. */
  function ColumnsOf(rows: seq<Row>, getPortableDeclaration: Row -> PortableDeclaration): (r: Array<ColumnDescriptor>)
    ensures UniqueKeys(r)
    ensures Keys(r) == FirstOccurrences(RowKeys(rows, getPortableDeclaration))
  {
    assert Keys(DescribeAll(rows, getPortableDeclaration)) == RowKeys(rows, getPortableDeclaration);
    AssignKeysInFirstOrder(DescribeAll(rows, getPortableDeclaration));
    Assign(DescribeAll(rows, getPortableDeclaration))
  }

  /** A column name holds the descriptor of the LAST row with that name. */
  lemma ColumnsLastRowWins(rows: seq<Row>, getPortableDeclaration: Row -> PortableDeclaration, j: nat)
    requires j < |rows|
    requires forall j' :: j < j' < |rows| ==>
      ColumnKey(DescribeColumn(rows[j'], getPortableDeclaration)) != ColumnKey(DescribeColumn(rows[j], getPortableDeclaration))
    ensures Get(ColumnsOf(rows, getPortableDeclaration), ColumnKey(DescribeColumn(rows[j], getPortableDeclaration)))
      == Some(DescribeColumn(rows[j], getPortableDeclaration))
  {
    var ds := seq(|rows|, i requires 0 <= i < |rows| => DescribeColumn(rows[i], getPortableDeclaration));
    KeyedLastWins(ds, j);
  }

  /** A column name no row has is absent. */
  lemma ColumnsAbsentName(rows: seq<Row>, getPortableDeclaration: Row -> PortableDeclaration, k: string)
    requires forall j :: 0 <= j < |rows| ==> ColumnKey(DescribeColumn(rows[j], getPortableDeclaration)) != k
    ensures Get(ColumnsOf(rows, getPortableDeclaration), k) == None
  {
    var ds := seq(|rows|, i requires 0 <= i < |rows| => DescribeColumn(rows[i], getPortableDeclaration));
    KeyedAbsent(ds, k);
  }

  function ColumnsQuery(table: string, services: Services): string {
    "EXEC sp_columns @table_name = " + services.quoteIdentifier(table)
  }

  /** `listTableColumns($table)`: one `sp_columns` query, its rows normalised and keyed by
      column name; a driver error propagates. */
  function ListTableColumns(table: string, services: Services): (r: Result<Array<ColumnDescriptor>, DbError>)
    ensures services.fetchAssoc(ColumnsQuery(table, services)).Err? ==>
      r == Err(services.fetchAssoc(ColumnsQuery(table, services)).error)
    ensures services.fetchAssoc(ColumnsQuery(table, services)).Ok? ==>
      r == Ok(ColumnsOf(services.fetchAssoc(ColumnsQuery(table, services)).value, services.getPortableDeclaration))
  {
    match services.fetchAssoc(ColumnsQuery(table, services))
    case Err(e) => Err(e)
    case Ok(rows) => Ok(ColumnsOf(rows, services.getPortableDeclaration))
  }

  /** Every column name some row carries is a key of the listing, and nothing else is. */
  lemma ColumnsKeys(rows: seq<Row>, getPortableDeclaration: Row -> PortableDeclaration)
    ensures |ColumnsOf(rows, getPortableDeclaration)| <= |rows|
    ensures forall k :: k in Keys(ColumnsOf(rows, getPortableDeclaration)) <==> k in RowKeys(rows, getPortableDeclaration)
  {
    FirstOccurrencesMembership(RowKeys(rows, getPortableDeclaration));
    FirstOccurrencesNoLonger(RowKeys(rows, getPortableDeclaration));
  }
}

=== FILE: mssql_table_indexes.dfy ===
/** The index listing of the MS SQL schema manager. It lives in `listTableViews`: the names
    `sp_statistics` returns, minus empty names and the names `sp_pkeys` returns. */
module MsSqlTableIndexes {
  import opened Wrappers
  import opened Php
  import opened Connection

  /** The connection services the listing calls: literal quoting, a single-column fetch by
      column key, and the formatter's index-name fix-up. */
  datatype Services = Services(
    quote: string -> string,
    fetchColumn: (string, string) -> Result<seq<Option<string>>, DbError>,
    fixIndexName: string -> string)

  /** `$v == null` for a fetched name: null, and the empty string null converts to; "0" is
      not equal to null. */
  predicate LooselyNull(v: Option<string>) {
    match v
    case None => true
    case Some(name) => name == ""
  }

  /** `in_array($v, $haystack)`, comparing names exactly. */
  predicate InArray(v: Option<string>, haystack: seq<Option<string>>) {
    exists i :: 0 <= i < |haystack| && haystack[i] == v
  }

  /** `! in_array($index, $pkAll) && $index != null`: a name is kept when it is present,
      non-empty and not a primary-key name. */
  predicate KeepIndex(index: Option<string>, primaryKeys: seq<Option<string>>): (keep: bool)
    ensures keep <==> index.Some? && index.value != "" && index !in primaryKeys
  {
    !InArray(index, primaryKeys) && !LooselyNull(index)
  }

  /** The filter loop: kept names, fixed up, in the order the index query returned them. */
  function KeptIndexes(indexes: seq<Option<string>>, primaryKeys: seq<Option<string>>, fix: string -> string): (r: seq<string>)
    ensures |r| <= |indexes|
    decreases |indexes|
  {
    if indexes == [] then []
    else
      (if KeepIndex(indexes[0], primaryKeys) then [fix(indexes[0].value)] else [])
      + KeptIndexes(indexes[1..], primaryKeys, fix)
  }

  /** A name is listed exactly when some kept index fixes up to it. */
  lemma {:induction false} KeptIndexesMembership(indexes: seq<Option<string>>, primaryKeys: seq<Option<string>>,
                                                 fix: string -> string, x: string)
    ensures x in KeptIndexes(indexes, primaryKeys, fix) <==>
      exists i :: 0 <= i < |indexes| && KeepIndex(indexes[i], primaryKeys) && fix(indexes[i].value) == x
    decreases |indexes|
  {
    if indexes != [] {
      KeptIndexesMembership(indexes[1..], primaryKeys, fix, x);
      if exists i :: 0 <= i < |indexes| && KeepIndex(indexes[i], primaryKeys) && fix(indexes[i].value) == x {
        var i :| 0 <= i < |indexes| && KeepIndex(indexes[i], primaryKeys) && fix(indexes[i].value) == x;
        if i > 0 {
          assert indexes[1..][i - 1] == indexes[i];
        }
      }
      if exists i :: 0 <= i < |indexes[1..]| && KeepIndex(indexes[1..][i], primaryKeys) && fix(indexes[1..][i].value) == x {
        var i :| 0 <= i < |indexes[1..]| && KeepIndex(indexes[1..][i], primaryKeys) && fix(indexes[1..][i].value) == x;
        assert indexes[i + 1] == indexes[1..][i];
      }
    }
  }

  /** The filter works entry by entry: it keeps the query's order. */
  lemma {:induction false} KeptIndexesAppend(a: seq<Option<string>>, b: seq<Option<string>>,
                                             primaryKeys: seq<Option<string>>, fix: string -> string)
    ensures KeptIndexes(a + b, primaryKeys, fix) == KeptIndexes(a, primaryKeys, fix) + KeptIndexes(b, primaryKeys, fix)
    decreases |a|
  {
    if a == [] {
      assert a + b == b;
    } else {
      KeptIndexesAppend(a[1..], b, primaryKeys, fix);
      var head := if KeepIndex(a[0], primaryKeys) then [fix(a[0].value)] else [];
      assert (a + b)[1..] == a[1..] + b;
      assert (a + b)[0] == a[0];
      assert KeptIndexes(a + b, primaryKeys, fix) == head + KeptIndexes(a[1..] + b, primaryKeys, fix);
      assert KeptIndexes(a, primaryKeys, fix) == head + KeptIndexes(a[1..], primaryKeys, fix);
    }
  }

  /** With the identity fix-up no primary-key name and no empty name survives. */
  lemma NoPrimaryKeySurvives(indexes: seq<Option<string>>, primaryKeys: seq<Option<string>>, x: string)
    requires x in KeptIndexes(indexes, primaryKeys, s => s)
    ensures Some(x) !in primaryKeys && x != ""
  {
    KeptIndexesMembership(indexes, primaryKeys, s => s, x);
  }

  function IndexQuery(table: string, services: Services): string {
    "EXEC sp_statistics @table_name = " + services.quote(table)
  }

  function PrimaryKeyQuery(table: string, services: Services): string {
    "EXEC sp_pkeys @table_name = " + services.quote(table)
  }

  /** `listTableViews($table)` with the result keys `keyName` and `pkName`: the index query,
      then the primary-key query, then the filter; the first driver error propagates. */
  function ListTableViews(table: string, keyName: string, pkName: string, services: Services): (r: Result<seq<string>, DbError>)
    ensures var indexes := services.fetchColumn(IndexQuery(table, services), keyName);
            var keys := services.fetchColumn(PrimaryKeyQuery(table, services), pkName);
      && (indexes.Err? ==> r == Err(indexes.error))
      && (indexes.Ok? && keys.Err? ==> r == Err(keys.error))
      && (indexes.Ok? && keys.Ok? ==>
            r == Ok(KeptIndexes(indexes.value, keys.value, services.fixIndexName))
            && |r.value| <= |indexes.value|
            && forall x :: x in r.value <==>
                 exists i :: 0 <= i < |indexes.value| && KeepIndex(indexes.value[i], keys.value)
                             && services.fixIndexName(indexes.value[i].value) == x)
  {
    match services.fetchColumn(IndexQuery(table, services), keyName)
    case Err(e) => Err(e)
    case Ok(indexes) =>
      match services.fetchColumn(PrimaryKeyQuery(table, services), pkName)
      case Err(e) => Err(e)
      case Ok(keys) =>
        var r := KeptIndexes(indexes, keys, services.fixIndexName);
        assert forall x :: x in r <==>
          exists i :: 0 <= i < |indexes| && KeepIndex(indexes[i], keys) && services.fixIndexName(indexes[i].value) == x
        by {
          forall x { KeptIndexesMembership(indexes, keys, services.fixIndexName, x); }
        }
        Ok(r)
  }
}

=== FILE: php.dfy ===
/** The pieces of PHP semantics the modelled code relies on: scalar cells and their string
    conversion, string truthiness, `strtolower`, `trim`, and ordered arrays with string keys. */
module Php {
  import opened Wrappers
  import Decimal

  /** A scalar value fetched from a catalog row. */
  datatype Cell = Null | Str(s: string) | Int(i: int)

  /** PHP's conversion to string: null is empty, an integer is its decimal numeral. */
  function ToString(c: Cell): string {
    match c
    case Null => ""
    case Str(s) => s
    case Int(i) => Decimal.IntToString(i)
  }

  /** A string in a boolean context: only the empty string and "0" are false. */
  predicate Truthy(s: string) {
    s != "" && s != "0"
  }

  function LowerChar(c: char): char {
    if 'A' <= c <= 'Z' then (c as int + 32) as char else c
  }

  /** `strtolower`: ASCII letters lowered, every other character kept. */
  function ToLower(s: string): (r: string)
    ensures |r| == |s|
    ensures forall i :: 0 <= i < |s| ==> r[i] == LowerChar(s[i])
  {
    seq(|s|, i requires 0 <= i < |s| => LowerChar(s[i]))
  }

  /** The characters `trim` removes by default: space, tab, newline, carriage return, NUL, vertical tab. */
  predicate IsBlank(c: char) {
    c == ' ' || c == '\t' || c == '\n' || c == '\r' || c == '\0' || c == '\U{B}'
  }

  predicate AllBlank(s: string) {
    forall i :: 0 <= i < |s| ==> IsBlank(s[i])
  }

  /** `ltrim`: the suffix left once the leading blanks are gone. */
  function TrimStart(s: string): (r: string)
    ensures |r| <= |s| && r == s[|s| - |r|..]
    ensures AllBlank(s[..|s| - |r|])
    ensures r == [] || !IsBlank(r[0])
    decreases |s|
  {
    if s != [] && IsBlank(s[0]) then TrimStart(s[1..]) else s
  }

  /** `rtrim`: the prefix left once the trailing blanks are gone. */
  function TrimEnd(s: string): (r: string)
    ensures |r| <= |s| && r == s[..|r|]
    ensures AllBlank(s[|r|..])
    ensures r == [] || !IsBlank(r[|r| - 1])
    decreases |s|
  {
    if s != [] && IsBlank(s[|s| - 1]) then TrimEnd(s[..|s| - 1]) else s
  }

  /** `s` is `w` with blanks before it, from position `i` on, and blanks after it. */
  predicate PaddedAt(s: string, w: string, i: int) {
    0 <= i <= |s| - |w| && s[i..i + |w|] == w && AllBlank(s[..i]) && AllBlank(s[i + |w|..])
  }

  /** `s` is `w` with blanks before and after it. */
  predicate BlankPadded(s: string, w: string) {
    exists i :: 0 <= i <= |s| && PaddedAt(s, w, i)
  }

  /** `trim`: the infix of `s` between a blank prefix and a blank suffix, itself starting and
      ending with a non-blank. */
  function Trim(s: string): (r: string)
    ensures BlankPadded(s, r)
    ensures r == [] || (!IsBlank(r[0]) && !IsBlank(r[|r| - 1]))
  {
    TrimPadding(s);
    TrimEnd(TrimStart(s))
  }

  lemma TrimPadding(s: string)
    ensures PaddedAt(s, TrimEnd(TrimStart(s)), |s| - |TrimStart(s)|)
  {
    PaddedWithin(s, TrimStart(s), TrimEnd(TrimStart(s)));
  }

  /** A blank-free prefix `r` of a suffix `t` of `s` sits between blanks, when the parts cut
      off are blank. */
  lemma PaddedWithin(s: string, t: string, r: string)
    requires |t| <= |s| && t == s[|s| - |t|..] && AllBlank(s[..|s| - |t|])
    requires |r| <= |t| && r == t[..|r|] && AllBlank(t[|r|..])
    ensures PaddedAt(s, r, |s| - |t|)
  {
    var i := |s| - |t|;
    assert s[i..i + |r|] == t[..|r|];
    assert s[i + |r|..] == t[|r|..];
  }

  lemma {:induction false} TrimStartSkips(s: string, i: nat)
    requires i <= |s| && AllBlank(s[..i]) && (i == |s| || !IsBlank(s[i]))
    ensures TrimStart(s) == s[i..]
    decreases i
  {
    if i > 0 {
      assert IsBlank(s[..i][0]);
      assert s[1..][..i - 1] == s[1..i];
      TrimStartSkips(s[1..], i - 1);
    }
  }

  lemma {:induction false} TrimEndSkips(s: string, j: nat)
    requires j <= |s| && AllBlank(s[j..]) && (j == 0 || !IsBlank(s[j - 1]))
    ensures TrimEnd(s) == s[..j]
    decreases |s| - j
  {
    if j < |s| {
      assert IsBlank(s[j..][|s| - j - 1]);
      var p := s[..|s| - 1];
      assert p[j..] == s[j..|s| - 1];
      TrimEndSkips(p, j);
      assert p[..j] == s[..j];
    }
  }

  /** Trimming `w` surrounded by blanks gives back `w`, for a `w` that neither starts nor ends
      with a blank. */
  lemma TrimOfPadded(s: string, w: string, i: nat)
    requires w != [] && !IsBlank(w[0]) && !IsBlank(w[|w| - 1])
    requires PaddedAt(s, w, i)
    ensures Trim(s) == w
  {
    assert s[i] == w[0];
    TrimStartSkips(s, i);
    var t := s[i..];
    assert t[..|w|] == w;
    assert t[|w|..] == s[i + |w|..];
    assert t[|w| - 1] == w[|w| - 1];
    TrimEndSkips(t, |w|);
  }

  /** `trim(s) === w` exactly when `s` is `w` surrounded by blanks. */
  lemma TrimEqualsIff(s: string, w: string)
    requires w != [] && !IsBlank(w[0]) && !IsBlank(w[|w| - 1])
    ensures Trim(s) == w <==> BlankPadded(s, w)
  {
    if i :| 0 <= i <= |s| && PaddedAt(s, w, i) {
      TrimOfPadded(s, w, i);
    }
  }

  /** A PHP array with string keys: its entries in iteration order. */
  type Array<V> = seq<(string, V)>

  function Keys<V>(a: Array<V>): (ks: seq<string>)
    ensures |ks| == |a|
    ensures forall i :: 0 <= i < |a| ==> ks[i] == a[i].0
  {
    seq(|a|, i requires 0 <= i < |a| => a[i].0)
  }

  predicate UniqueKeys<V>(a: Array<V>) {
    forall i, j :: 0 <= i < j < |a| ==> a[i].0 != a[j].0
  }

  /** `$a[$k]` for a key that may be missing. */
  function Get<V>(a: Array<V>, k: string): (r: Option<V>)
    ensures r.None? <==> k !in Keys(a)
    ensures r.Some? ==> (k, r.value) in a
    decreases |a|
  {
    if a == [] then None
    else if a[0].0 == k then Some(a[0].1)
    else
      assert Keys(a) == [a[0].0] + Keys(a[1..]);
      Get(a[1..], k)
  }

  lemma KeysCons<V>(e: (string, V), a: Array<V>)
    ensures Keys([e] + a) == [e.0] + Keys(a)
  {
  }

  lemma UniqueKeysCons<V>(e: (string, V), a: Array<V>)
    ensures UniqueKeys([e] + a) <==> e.0 !in Keys(a) && UniqueKeys(a)
  {
    var c := [e] + a;
    if UniqueKeys(c) {
      forall i | 0 <= i < |a| ensures a[i].0 != e.0 {
        assert c[0] == e && c[i + 1] == a[i];
      }
      forall i, j | 0 <= i < j < |a| ensures a[i].0 != a[j].0 {
        assert c[i + 1] == a[i] && c[j + 1] == a[j];
      }
    }
  }

  /** The assignment `$a[$k] = $v`: an existing key keeps its position and takes the new
      value; a new key is appended at the end. */
  function Put<V>(a: Array<V>, k: string, v: V): (r: Array<V>)
    ensures forall k' :: Get(r, k') == if k' == k then Some(v) else Get(a, k')
    ensures Keys(r) == if k in Keys(a) then Keys(a) else Keys(a) + [k]
    decreases |a|
  {
    if a == [] then [(k, v)]
    else if a[0].0 == k then
      KeysCons(a[0], a[1..]);
      KeysCons((k, v), a[1..]);
      assert a == [a[0]] + a[1..];
      [(k, v)] + a[1..]
    else
      var t := Put(a[1..], k, v);
      KeysCons(a[0], a[1..]);
      KeysCons(a[0], t);
      assert a == [a[0]] + a[1..];
      assert ([a[0]] + t)[1..] == t;
      [a[0]] + t
  }

  /** Assignment never duplicates a key. */
  lemma {:induction false} PutKeepsUnique<V>(a: Array<V>, k: string, v: V)
    requires UniqueKeys(a)
    ensures UniqueKeys(Put(a, k, v))
    decreases |a|
  {
    if a != [] {
      UniqueKeysCons(a[0], a[1..]);
      assert a == [a[0]] + a[1..];
      if a[0].0 == k {
        UniqueKeysCons((k, v), a[1..]);
      } else {
        var t := Put(a[1..], k, v);
        PutKeepsUnique(a[1..], k, v);
        UniqueKeysCons(a[0], t);
      }
    }
  }

  /** The array a loop of assignments `$a[$k] = $v` builds from an empty array, one entry of
      `es` after another. */
  function Assign<V>(es: seq<(string, V)>): (r: Array<V>)
    ensures UniqueKeys(r)
    decreases |es|
  {
    if es == [] then []
    else
      var a := Assign(es[..|es| - 1]);
      PutKeepsUnique(a, es[|es| - 1].0, es[|es| - 1].1);
      Put(a, es[|es| - 1].0, es[|es| - 1].1)
  }

  /** The last assignment decides its own key and leaves the others as before. */
  lemma AssignLast<V>(es: seq<(string, V)>, k: string)
    requires es != []
    ensures Get(Assign(es), k) ==
      if k == es[|es| - 1].0 then Some(es[|es| - 1].1) else Get(Assign(es[..|es| - 1]), k)
  {
  }

  /** Every key assigned is present, and it holds the value of its LAST assignment. */
  lemma {:induction false} AssignLastWins<V>(es: seq<(string, V)>, j: nat)
    requires j < |es|
    requires forall j' :: j < j' < |es| ==> es[j'].0 != es[j].0
    ensures Get(Assign(es), es[j].0) == Some(es[j].1)
    decreases |es|
  {
    if j < |es| - 1 {
      AssignLastWins(es[..|es| - 1], j);
    }
  }

  /** A key never assigned is absent. */
  lemma {:induction false} AssignAbsent<V>(es: seq<(string, V)>, k: string)
    requires forall j :: 0 <= j < |es| ==> es[j].0 != k
    ensures Get(Assign(es), k) == None
    decreases |es|
  {
    if es != [] {
      AssignAbsent(es[..|es| - 1], k);
    }
  }

  /** The keys of `ks` in order of first appearance, later repeats dropped. */
  function FirstOccurrences(ks: seq<string>): seq<string>
    decreases |ks|
  {
    if ks == [] then []
    else
      var d := FirstOccurrences(ks[..|ks| - 1]);
      if ks[|ks| - 1] in d then d else d + [ks[|ks| - 1]]
  }

  lemma {:induction false} FirstOccurrencesMembership(ks: seq<string>)
    ensures forall k :: k in FirstOccurrences(ks) <==> k in ks
    decreases |ks|
  {
    if ks != [] {
      var p := ks[..|ks| - 1];
      FirstOccurrencesMembership(p);
      assert ks == p + [ks[|ks| - 1]];
    }
  }

  lemma {:induction false} FirstOccurrencesNoLonger(ks: seq<string>)
    ensures |FirstOccurrences(ks)| <= |ks|
    decreases |ks|
  {
    if ks != [] {
      FirstOccurrencesNoLonger(ks[..|ks| - 1]);
    }
  }

  /** An array built by assignments lists each key once, at the position of its first
      assignment. */
  lemma {:induction false} AssignKeysInFirstOrder<V>(es: seq<(string, V)>)
    ensures Keys(Assign(es)) == FirstOccurrences(Keys(es))
    decreases |es|
  {
    if es != [] {
      var p := es[..|es| - 1];
      AssignKeysInFirstOrder(p);
      assert Keys(es)[..|es| - 1] == Keys(p);
    }
  }

  /** `array_change_key_case($a, CASE_LOWER)`: keys lowered; when two keys collide, the later
      entry's value wins at the earlier entry's position. */
  function LowerKeys<V>(a: Array<V>): (r: Array<V>)
    ensures UniqueKeys(r)
  {
    Assign(LowerEntries(a))
  }

  /** The entries of `a` with their keys lowered, in order. */
  function LowerEntries<V>(a: Array<V>): seq<(string, V)> {
    seq(|a|, i requires 0 <= i < |a| => (ToLower(a[i].0), a[i].1))
  }

  lemma LowerEntriesPrefix<V>(a: Array<V>)
    requires a != []
    ensures LowerEntries(a)[..|a| - 1] == LowerEntries(a[..|a| - 1])
    ensures LowerEntries(a)[|a| - 1] == (ToLower(a[|a| - 1].0), a[|a| - 1].1)
  {
  }
}

=== FILE: type_conversion.dfy ===
/** What the date and interval converters share: the PHP values they are handed, the errors
    they throw, the platform's format strings, and the PHP date library they call. */
module TypeConversion {
  import opened Wrappers

  /** A PHP value given to a converter: null, an object of the converter's own class `T`, a
      string, or any other value, together with its shape. */
  datatype Value<+T> = Null | Native(native: T) | Text(text: string) | Other(description: string, shape: Shape)

  /** What reading `$value[0]` does on a value that is neither null, `T` nor a string: a scalar
      has no offset 0; an array or `ArrayAccess` object may hold the string `+` or `-` there;
      any other object cannot be read as an array at all. */
  datatype Shape = Scalar | Indexable(signLed: bool) | PlainObject

  /** `InvalidType` names the values the converter accepts; `InvalidFormat` names the format
      it expected; `TypeError` is PHP's own error for a non-string handed to a string
      parameter under strict types; `NotAnArray` is PHP's `Error` for reading an offset of an
      object that does not implement `ArrayAccess`. */
  datatype ConversionError<+T> =
    | InvalidType(value: Value<T>, toType: string, possibleTypes: seq<string>)
    | InvalidFormat(value: Value<T>, toType: string, expectedFormat: string)
    | TypeError(value: Value<T>)
    | NotAnArray(value: Value<T>)

  /** The platform's date and datetime format strings. */
  datatype Platform = Platform(dateFormat: string, dateTimeFormat: string)

  /** PHP's date library: `DateTimeImmutable::format`, `DateTimeImmutable::createFromFormat`
      (None for `false`) and the permissive `date_create_immutable`. */
  datatype DateLibrary<!D> = DateLibrary(
    format: (D, string) -> string,
    createFromFormat: (string, string) -> Option<D>,
    dateCreate: string -> Option<D>)

  /** The PHP value accepted by the date converters besides null. */
  const DATE_TIME_IMMUTABLE := "DateTimeImmutable"
}

=== FILE: wrappers.dfy ===
/** Option and Result values for the partial operations and error paths of the model. */
module Wrappers {

  /** A value that may be absent, as PHP's `false` or `null` return of a failed lookup or parse. */
  datatype Option<+T> = None | Some(value: T)

  /** The outcome of an operation that either returns a value or throws. */
  datatype Result<+T, +E> = Ok(value: T) | Err(error: E)
}
